=== FILE: README.md ===
# Property directory core, modelled in Dafny

The system is a Django application for an accommodation directory. It has:

- **Locations**: a tree of places with a point centre and a country code.
- **Accommodations**: properties with an owner, a country and a published flag.
- **Localizations**: per-language descriptions and policies of an accommodation.

This project models the parts of that application that hold the logic:

- **CSV location import** (`polls/admin.py`): it splits the `POINT(x y)` centre text and
  upserts every good row by id. It skips and reports the bad rows and counts the imported
  and skipped rows.
- **Admin rules** (`polls/admin.py`):
  - A non-superuser sees only their own accommodations and localizations, and may delete
    only those.
  - Whoever creates an accommodation becomes its owner.
  - The description column is shortened.
  - Before a localization is written, its description and policy must be in its language
    and the principal must be allowed to write it.
- **Localization model** (`polls/models.py`):
  - Its `clean()` checks the description and then each policy value against the language.
  - `save()` always runs `clean()` first.
  - The table keeps one row per `(property, language)` pair.
  - The string form of a localization is `LANG - title`.
- **Read API** (`polls/views.py`):
  - The location list is ordered by id, can be filtered by type and comes ten per page.
  - A location's children are listed under its title.
  - The accommodation list can be filtered by `published` and `country` and comes ten per
    page.
  - A user's accommodations can be listed.
- **Sitemap command** (`polls/management/commands/generate_sitemap.py`): it groups
  locations by country in first-appearance order and gives each location the entry
  `title -> cc/slug`.

Modules and files:

| file | module | contents |
|---|---|---|
| `outcomes.dfy` | `Outcomes` | `Option` and `Result` |
| `text.dfy` | `Text` | whitespace splitting, `str.replace` with the empty string, ASCII case mapping |
| `seqs.dfy` | `Seqs` | filter and map over sequences, the ten-row pages of the paginator |
| `models.dfy` | `Models` | the entities, column widths, the localization label |
| `location_import.dfy` | `LocationImport` | the CSV import as a fold over rows, and the method that runs the loop |
| `language_check.dfy` | `LanguageCheck` | `clean()` and `save()` of a localization, the table invariant |
| `admin_rules.dfy` | `AdminRules` | visibility, ownership, delete permission, short description, the admin save |
| `read_api.dfy` | `ReadApi` | the four JSON views as pure functions over the tables |
| `sitemap.dfy` | `Sitemap` | a reference definition of the sitemap and the loop that builds it |

Some behaviour is not visible in the code, so it is passed in as a function parameter:

- Language detection is a parameter `detect: string -> Option<string>`. `None` stands for
  `LangDetectException`.
- Python's `float()` is a parameter `parseFloat`, and `int()` is a parameter `parseInt`.
  `None` stands for `ValueError`.

The database is modelled as follows:

- A table is a map keyed by primary key, or a sequence in the order the query returns
  the rows.
- The location listing takes the location table already in `id` order.
- The sitemap takes it already in `title` order.

## Model

| member | source | states |
|---|---|---|
| Text.TokensAreRuns | polls/admin.py:54-55 | `split()` yields one token per position where a word starts (a non-whitespace character at the start of the text or after whitespace), in order, and each token is the whole non-whitespace run from its start up to the next whitespace or the end; the token count decides the `len(...) != 2` check |
| Text.WordStartsComplete | polls/admin.py:54 | every position where a word starts is among the listed word starts, so no word of the text is skipped |
| Text.TokensCoverText | polls/admin.py:54 | the tokens of `split()`, written back to back, are the text with all its whitespace removed |
| Text.TokensOfJoin | polls/admin.py:54 | splitting the single-space join of whitespace-free words gives back the same words |
| Text.RemoveCharIsFilter | polls/admin.py:54 | `replace(c, "")` for one character `c` (the `)` of the centre text) keeps every other character, in order, and drops every `c` |
| Text.RemoveStep | polls/admin.py:54 | `replace(pat, "")` removes an occurrence of `pat` whole once the scan reaches it, and goes on scanning right after it |
| LocationImport.CenterTokens | polls/admin.py:54 | the centre text with every `POINT(` and `)` removed, split on whitespace: one non-empty, space-free token per word start, the tokens together are the stripped text's non-space characters in order, and none contains `)` |
| LocationImport.CenterTokenBoundaries | polls/admin.py:54 | each centre token is the whole non-whitespace run starting at the matching word start of the stripped text, so `POINT(ab c)` gives `ab` and `c` |
| LocationImport.CenterSkipsPoint | polls/admin.py:54 | every `POINT(` is removed, not only the first: one after a prefix without `P` leaves the same tokens as the text without it, so `POINT(POINT(1 2))` splits like `1 2` |
| LocationImport.PointTextTokens | polls/admin.py:54-55 | a well-formed `POINT(x y)` centre text tokenises to exactly the two coordinate words `[x, y]` |
| LocationImport.ParseCenter | polls/admin.py:54-58 | the centre is accepted iff it gives exactly two tokens and both parse as floats; otherwise the error names the token count when it is not two, or else the first token that is not a number |
| LocationImport.ParseRow | polls/admin.py:53-71 | a missing `center` column is reported as such; a token count other than two is a point-format error; a row is accepted iff every used column is present, the centre parses and every value fits its column width; an accepted row carries exactly the row's values |
| LocationImport.Upsert | polls/admin.py:61-71 | `update_or_create` by id: the id becomes a key, the six default fields are overwritten, an existing row keeps its parent and a new row has none, and every other location is unchanged |
| LocationImport.Import | polls/admin.py:47-74 | every row is counted, the skipped rows are at most the counted rows, one message is sent per skipped row, and no location is ever removed |
| LocationImport.DiagnosticsSound | polls/admin.py:72-74 | every error message names a row (1-based) that really fails to import, with that row's error |
| LocationImport.DiagnosticsIncreasing | polls/admin.py:72-74 | error messages come out in strictly increasing row order |
| LocationImport.DiagnosticsComplete | polls/admin.py:72-74 | every failing row has an error message |
| LocationImport.SkippedCountsFailures | polls/admin.py:73-78 | the skipped count is exactly the number of failing rows, and the imported count is the number of rows that pass |
| LocationImport.FailuresIndependentOfStore | polls/admin.py:50-74 | which rows fail, and the messages reported, do not depend on the locations already stored |
| LocationImport.ImportedStore | polls/admin.py:61-71 | after the import a location id is present iff it was there before or some good row wrote it; its value is the last good row's write (with the original parent), and untouched ids keep their old value |
| LocationImport.FailuresKeepEarlierWrites | polls/admin.py:72-73 | failing rows roll nothing back: the locations after trailing failures equal those written before them |
| LocationImport.ImportCsv | polls/admin.py:47-80 | the import loop computes the fold: the resulting locations and messages, imported plus skipped equals the rows read, skipped equals the failures, and the messages are sound, ordered and complete |
| Models.LocalizationLabel | polls/models.py:63-64 | the label is the upper-cased language code, then ` - `, then the property's title |
| Models.EnglishLabel | polls/models.py:63-64 | every `en` localization is labelled `EN - ` followed by its property's title (so "Test Accommodation" gives `EN - Test Accommodation`) |
| LanguageCheck.FirstOffending | polls/models.py:87-98 | the policy scan stops at the first item whose value is undetectable or in another language, and all earlier items conform |
| LanguageCheck.Clean | polls/models.py:72-100 | `clean()` passes iff the description and every policy value are detected as the localization's language; description errors come first, an undetectable description reported as undetectable and a detected mismatch as not-in-language; a non-object policy is rejected; a policy error names the first offending key and says whether its value was undetectable or in another language |
| LanguageCheck.EmptyPolicyPasses | polls/models.py:87-92 | with an empty policy object, `clean()` passes exactly when the description is in the language |
| LanguageCheck.Save | polls/models.py:102-107 | `save()` writes only a row that passes `clean()`, refers to an existing accommodation and does not duplicate a `(property, language)` pair; it succeeds exactly when the row passes `clean()`, a new row's id is free, the pair is not held by another row and the accommodation exists; it writes exactly that row, leaves the others alone, and keeps the table invariant |
| LanguageCheck.EditInPlace | polls/models.py:102-107 | in a valid table, saving a stored localization again with conforming new text, same accommodation and language, succeeds and replaces the row under its id |
| LanguageCheck.SecondLocalizationRefused | polls/models.py:67 | adding a second localization for the same accommodation and language is always refused |
| AdminRules.VisibleAccommodations | polls/admin.py:96-104 | a superuser sees the whole table; anyone else sees exactly the accommodations they own, each row as often as in the table and in table order |
| AdminRules.VisibleLocalizations | polls/admin.py:141-149 | a superuser sees every localization; anyone else sees exactly those of the properties they own, each row as often as in the table and in table order |
| AdminRules.OwnerOnSave | polls/admin.py:106-113 | a new accommodation, or one without owner, gets the saving principal as owner; an edit keeps an existing owner |
| AdminRules.CreatorSeesNewAccommodation | polls/admin.py:111-112 | whoever adds an accommodation finds it in their own change list |
| AdminRules.CanDeleteAccommodation | polls/admin.py:115-122 | for a given row and a non-superuser, delete is allowed iff they own it; otherwise the model permission decides |
| AdminRules.DeleteMirrorsVisibility | polls/admin.py:115-122 | a non-superuser may delete an accommodation iff it is in their change list |
| AdminRules.CanDeleteLocalization | polls/admin.py:185-192 | for a given localization and a non-superuser, delete is allowed iff they own its property |
| AdminRules.LocalizationDeleteMirrorsVisibility | polls/admin.py:185-192 | a non-superuser may delete a localization iff it is in their change list |
| AdminRules.DescriptionShort | polls/admin.py:151-155 | at most 53 characters; a description of up to 50 characters is shown as is; a longer one shows its first 50 characters followed by `...` |
| AdminRules.AdminPolicyCheck | polls/admin.py:171-179 | the admin's policy check skips a non-object policy; for an object it passes iff every value is detected as the language, and otherwise reports the first offending key, as undetectable or as in another language |
| AdminRules.AdminSaveLocalization | polls/admin.py:158-183 | a write succeeds only for a conforming localization saved by a superuser or the property's owner; for such a write the outcome is the model's `save()` (its success, or its refusal wrapped as a model error); a bad description, and then a bad policy value of an object policy, is refused as a language error before ownership is looked at; a principal who is neither superuser nor owner is refused exactly when the language checks pass |
| AdminRules.NonObjectPolicyInAdmin | polls/admin.py:172-183 | the admin skips a non-object policy, so a stranger is refused for ownership, while the owner's write is refused by `clean()` |
| ReadApi.LocationListing | polls/views.py:40-46 | a present, non-empty `type` keeps exactly the locations of that type, and an absent or empty one keeps all of them, projected to the five listed columns; the result is the projected table with rows dropped and the rest in table order |
| ReadApi.ListingKeepsIdOrder | polls/views.py:41-44 | filtering by type keeps the listing ordered by id |
| ReadApi.LocationListPage | polls/views.py:46-48 | page `n` holds the listing rows from position `10(n-1)` onward: ten of them, or fewer only when the listing runs out |
| ReadApi.LocationChildren | polls/views.py:56-62 | an unknown id answers not-found; otherwise the answer carries the parent's title and exactly the locations whose parent is that id, each once per table row (the children are the projected table with rows dropped) |
| ReadApi.AccommodationListing | polls/views.py:72-80 | a `published` value that is not an integer is an error; otherwise the rows are exactly those matching `bool(int(published))` when given and the country when non-empty |
| ReadApi.AccommodationListingInTableOrder | polls/views.py:74-80 | a successful accommodation list is the projected table with rows dropped and the rest in table order |
| ReadApi.FiltersCombine | polls/views.py:76-80 | with both filters given, the listing is the published-filtered listing narrowed to the country |
| ReadApi.NoParametersListsAll | polls/views.py:72-80 | without parameters every accommodation is listed |
| ReadApi.AccommodationListPage | polls/views.py:82-85 | page `n` holds the listing rows from position `10(n-1)` onward, ten of them or fewer only when the listing runs out, and fails exactly when the listing does |
| ReadApi.AccommodationsByUser | polls/views.py:93-99 | exactly the accommodations owned by the given user, projected, in table order |
| Seqs.PagesCoverAll | polls/views.py:46-48 | the pages `1..num_pages` of the ten-row paginator, concatenated, give back the whole list |
| Sitemap.Slug | polls/management/commands/generate_sitemap.py:23 | the slug keeps the title's length, has no spaces, puts `-` where the title had a space and lower-cases the rest |
| Sitemap.EntryOf | polls/management/commands/generate_sitemap.py:23-28 | a location's entry is keyed by its title and its URL is the lower-cased country code, `/`, then the slug |
| Sitemap.CountriesOccur | polls/management/commands/generate_sitemap.py:17-20 | every country of the sitemap is the country code of some location, so no group is invented |
| Sitemap.AddLocationStep | polls/management/commands/generate_sitemap.py:17-29 | one loop step (create the country's group if new, then append the entry) turns the sitemap of a prefix into that of the prefix extended by one location |
| Sitemap.EntriesAreFilteredLocations | polls/management/commands/generate_sitemap.py:27-29 | a country's entries are exactly the entries of that country's locations, in input order |
| Sitemap.EveryLocationCounted | polls/management/commands/generate_sitemap.py:17-29 | the sitemap holds exactly one entry per location |
| Sitemap.GroupsInFirstAppearanceOrder | polls/management/commands/generate_sitemap.py:19-32 | country groups appear in the order in which their first location appears |
| Sitemap.BuildSitemap | polls/management/commands/generate_sitemap.py:9-32 | the loop builds the reference sitemap; its groups have distinct countries named after themselves, hold exactly their locations' entries in order, cover every location's country and total one entry per location |

## Left out

- I/O and HTTP are not modelled:
  - the upload form, UTF-8 decoding and the CSV dialect of `csv.DictReader`;
  - the `message_user` texts;
  - JSON responses, `get_object_or_404` as an HTTP 404, and writing `sitemap.json` with its
    error branch.
  - A row is a map from column name to text. A short CSV row, whose missing cells
    `DictReader` fills with `None`, is treated like a row without those columns, and every
    such row fails in the model. See the `LocationImport.ParseRow` line for where the
    source differs.
- Error messages are kept as structured error values, not their texts. This covers the
  `ValidationError` messages and the `PermissionError` message.
- Language detection, `float()` and `int()` are function parameters. This is because
  `langdetect` and Python's number parsing are not part of this model.
- LocationImport.ParseRow: a value longer than its column's `max_length` always makes the
  row fail. PostgreSQL instead silently truncates a value whose excess characters are all
  spaces, so `country_code = "US "` is imported there as `US`. SQLite does not enforce
  `max_length` at all. The model follows a backend that refuses every over-long value.
  Two more cases are not modelled.
  - `None` cells of a short row. A `None` in `center` fails at `replace`. A `None` in
    `title`, `location_type`, `country_code`, `state_abbr` or `city` fails at the write,
    because those columns are NOT NULL. A `None` in `id` alone does not fail:
    `update_or_create(id=None, …)` finds no row, and Django saves the new primary key as
    the field's empty value `""`. So the row is imported under id `""`, or refused as a
    duplicate key when that id exists. The model skips every such row as a missing column.
  - NUL characters. PostgreSQL refuses any text value that contains NUL (`\x00`), so the
    source skips such a row; the model imports it.
- Database collation: the location listing and the sitemap take their table already in the
  order the query asks for. `ReadApi.IdBefore` states the id order as code-point
  lexicographic order, not a database collation.
- ReadApi.LocationChildren: returns the children in table order. The database gives no
  ordering for that query, so none is promised.
- ReadApi.LocationListPage: takes a page number of at least 1. Django's `get_page` clamps a
  non-integer, too-small or too-large page number and reports `num_pages` and
  `page.number`; that clamping is not modelled.
- ReadApi.AccommodationListPage: takes a page number of at least 1, for the same reason.
- ReadApi.AccommodationListingInTableOrder: the accommodation queries (polls/views.py:74 and
  :97) have no `order_by` and the model has no `Meta.ordering` (polls/models.py:50-53), so the
  database promises no order. The model assumes the table comes in one fixed order that the
  listing keeps.
- ReadApi.AccommodationListPage: assumes the same fixed order for every page request. With an
  unordered query, the LIMIT/OFFSET queries behind Django's `Paginator` may return rows in a
  different order per page, so real pages can repeat or skip rows; the model's pages cannot.
- ReadApi.AccommodationsByUser: keeps the fixed table order for the same reason; the source
  query promises no order.
- The case mapping is ASCII only: Python's `lower()`, `upper()` and `isspace()` on
  non-ASCII letters are not modelled. `isspace()` covers the code points Python treats as
  whitespace up to U+3000, as listed in `Text.IsSpace`.
- Policy values are modelled as strings. A JSON policy with non-string values would make
  `detect` raise a type error. That error is not modelled.
- Auto-increment ids:
  - the table's next id is a counter;
  - explicit primary keys on insert and the sequence behaviour after deletes are not
    modelled.
- LanguageCheck.Save: a refused insert leaves the next id unchanged. A PostgreSQL sequence
  uses up a value even when the insert is then refused, so there later ids can skip
  numbers. In the model the counter moves only on a successful insert.
- Language detection is taken as deterministic: the same text gets the same answer from
  `detect` in the admin's check and in `clean()`. `langdetect` without a fixed seed can
  answer differently for the same text, so the admin's check can pass while `clean()`
  refuses, or the reverse. This is not modelled.
- Several features are not modelled:
  - the `__str__` of `Location` and `Accommodation`, which only return the title field;
  - the image and amenity lists;
  - timestamps;
  - cascading deletes;
  - `get_urls`;
  - `get_form`, which only hides a form field;
  - the `index` and `property_owner_signup` views;
  - the framework's own model permissions, which are a parameter.
- The admin form's own validation before `save_model` is not modelled. The model's
  `save()` then runs `clean()` again, and that is modelled in `LanguageCheck.Save`.
- Point coordinates are reals: the floating-point rounding of `float()` is left to the
  parser parameter.

=== FILE: admin_rules.dfy ===
/**
 The admin surface's rules: which rows a principal sees, who becomes the owner on
 save, who may delete, the shortened description column, and the admin's own
 language-then-ownership check before a localization is written.
 */
module AdminRules {
  import opened Outcomes
  import opened Models
  import Seqs
  import opened LanguageCheck

  /** True iff the principal is the recorded owner; a row without owner is nobody's. */
  predicate Owns(p: Principal, owner: Option<UserId>) {
    owner == Some(p.id)
  }

  /** True iff the localization's property exists and is owned by the principal. */
  predicate OwnsProperty(p: Principal, accommodations: map<string, Accommodation>, loc: Localization) {
    loc.property in accommodations && Owns(p, accommodations[loc.property].owner)
  }

  /** The accommodation change list: everything for a superuser, otherwise the principal's own rows. */
  function VisibleAccommodations(p: Principal, table: seq<Accommodation>): (r: seq<Accommodation>)
    ensures p.isSuperuser ==> r == table
    ensures !p.isSuperuser ==> forall i :: 0 <= i < |r| ==> r[i] in table && Owns(p, r[i].owner)
    ensures !p.isSuperuser ==> forall i :: 0 <= i < |table| && Owns(p, table[i].owner) ==> table[i] in r
    ensures !p.isSuperuser ==> exists idx :: Seqs.Embeds(r, table, idx)
  {
    var keep := (a: Accommodation) => Owns(p, a.owner);
    Seqs.FilterEmbeds(table, keep);
    if p.isSuperuser then table else Seqs.Filter(table, keep)
  }

  /** The localization change list: everything for a superuser, otherwise those of the principal's properties. */
  function VisibleLocalizations(p: Principal, accommodations: map<string, Accommodation>, table: seq<Localization>)
    : (r: seq<Localization>)
    ensures p.isSuperuser ==> r == table
    ensures !p.isSuperuser ==> forall i :: 0 <= i < |r| ==> r[i] in table && OwnsProperty(p, accommodations, r[i])
    ensures !p.isSuperuser ==>
      forall i :: 0 <= i < |table| && OwnsProperty(p, accommodations, table[i]) ==> table[i] in r
    ensures !p.isSuperuser ==> exists idx :: Seqs.Embeds(r, table, idx)
  {
    var keep := (l: Localization) => OwnsProperty(p, accommodations, l);
    Seqs.FilterEmbeds(table, keep);
    if p.isSuperuser then table else Seqs.Filter(table, keep)
  }

  /**
   The owner an accommodation has after an admin save: the saving principal for a new
   row or a row without owner, otherwise the existing owner.
   */
  function OwnerOnSave(p: Principal, change: bool, current: Option<UserId>): (r: Option<UserId>)
    ensures r.Some?
    ensures !change ==> r == Some(p.id)
    ensures change && current.Some? ==> r == current
    ensures change && current.None? ==> r == Some(p.id)
  {
    if !change || current.None? then Some(p.id) else current
  }

  /** Whoever adds an accommodation through the admin sees it in their change list afterwards. */
  lemma CreatorSeesNewAccommodation(p: Principal, a: Accommodation, table: seq<Accommodation>)
    ensures var saved := a.(owner := OwnerOnSave(p, false, a.owner));
      saved in VisibleAccommodations(p, table + [saved])
  {
    var saved := a.(owner := OwnerOnSave(p, false, a.owner));
    assert (table + [saved])[|table|] == saved;
  }

  /**
   `has_delete_permission` of the accommodation admin: for a given row and a
   non-superuser, ownership decides; otherwise the framework's model permission does.
   */
  function CanDeleteAccommodation(p: Principal, obj: Option<Accommodation>, modelPermission: bool): (r: bool)
    ensures obj.Some? && !p.isSuperuser ==> (r <==> Owns(p, obj.value.owner))
    ensures obj.None? || p.isSuperuser ==> r == modelPermission
  {
    if obj.Some? && !p.isSuperuser then obj.value.owner == Some(p.id) else modelPermission
  }

  /** For a non-superuser, a row may be deleted exactly when it is in their change list. */
  lemma DeleteMirrorsVisibility(p: Principal, table: seq<Accommodation>, i: nat, modelPermission: bool)
    requires !p.isSuperuser && i < |table|
    ensures CanDeleteAccommodation(p, Some(table[i]), modelPermission) <==> table[i] in VisibleAccommodations(p, table)
  {
    var r := VisibleAccommodations(p, table);
    if table[i] in r {
      var j :| 0 <= j < |r| && r[j] == table[i];
    }
  }

  /** `has_delete_permission` of the localization admin, decided by the property's owner. */
  function CanDeleteLocalization(p: Principal, accommodations: map<string, Accommodation>,
                                 obj: Option<Localization>, modelPermission: bool): (r: bool)
    requires obj.Some? ==> obj.value.property in accommodations
    ensures obj.Some? && !p.isSuperuser ==> (r <==> OwnsProperty(p, accommodations, obj.value))
    ensures obj.None? || p.isSuperuser ==> r == modelPermission
  {
    if obj.Some? && !p.isSuperuser then accommodations[obj.value.property].owner == Some(p.id)
    else modelPermission
  }

  /** For a non-superuser, a localization may be deleted exactly when it is in their change list. */
  lemma LocalizationDeleteMirrorsVisibility(p: Principal, accommodations: map<string, Accommodation>,
                                            table: seq<Localization>, i: nat, modelPermission: bool)
    requires !p.isSuperuser && i < |table| && table[i].property in accommodations
    ensures CanDeleteLocalization(p, accommodations, Some(table[i]), modelPermission)
        <==> table[i] in VisibleLocalizations(p, accommodations, table)
  {
    var r := VisibleLocalizations(p, accommodations, table);
    if table[i] in r {
      var j :| 0 <= j < |r| && r[j] == table[i];
    }
  }

  /** The number of characters the description column keeps before `...`. */
  const ShortLength: nat := 50

  /**
   The "Short Description" column: a description of at most 50 characters as it is,
   a longer one cut to its first 50 characters followed by `...`.
   */
  function DescriptionShort(d: string): (r: string)
    ensures |r| <= ShortLength + 3
    ensures |d| <= ShortLength ==> r == d
    ensures |d| > ShortLength ==> |r| == ShortLength + 3 && r[ShortLength..] == "..."
    ensures forall i :: 0 <= i < |r| && i < ShortLength ==> i < |d| && r[i] == d[i]
  {
    if |d| > ShortLength then d[..ShortLength] + "..." else d
  }

  /** Why the admin refused to save a localization. */
  datatype AdminError =
    | LanguageRejected(reason: CleanError)   // the admin's own language check raised
    | Forbidden                              // the principal does not own the property
    | ModelRejected(cause: SaveError)        // the model's `save()` refused the write

  /** The admin's policy check: entries of an object policy only; any other value passes here. */
  function AdminPolicyCheck(loc: Localization, detect: Detector): (r: Option<CleanError>)
    ensures loc.policy.NotObject? ==> r.None?
    ensures loc.policy.Object? ==>
      (r.None? <==> forall i :: 0 <= i < |loc.policy.items| ==> InLanguage(loc.policy.items[i].value, loc.language, detect))
    ensures loc.policy.Object? && r.Some? ==>
      exists i :: 0 <= i < |loc.policy.items|
        && !InLanguage(loc.policy.items[i].value, loc.language, detect)
        && (forall j :: 0 <= j < i ==> InLanguage(loc.policy.items[j].value, loc.language, detect))
        && r.value == (if detect(loc.policy.items[i].value).None? then PolicyValueUndetected(loc.policy.items[i].key)
                       else PolicyValueNotInLanguage(loc.policy.items[i].key))
  {
    if loc.policy.Object? then ItemsCheck(loc.policy.items, loc.language, detect) else None
  }

  /**
   The localization admin's `save_model`: the language of the description and of every
   policy value is checked first, then ownership of the property, and only then is the
   model saved (which runs `clean()` again and refuses duplicates).
   */
  function AdminSaveLocalization(accommodations: map<string, Accommodation>, st: LocalizationStore,
                                 target: Option<nat>, loc: Localization, p: Principal, detect: Detector)
    : (r: Result<Saved, AdminError>)
    requires loc.property in accommodations
    ensures r.Ok? ==> Conforms(loc, detect) && (p.isSuperuser || OwnsProperty(p, accommodations, loc))
    ensures r.Ok? ==> Save(accommodations, st, target, loc, detect) == Ok(r.value)
    ensures !InLanguage(loc.description, loc.language, detect) ==> r == Err(LanguageRejected(Clean(loc, detect).value))
    ensures r == Err(Forbidden) <==>
      && InLanguage(loc.description, loc.language, detect)
      && AdminPolicyCheck(loc, detect).None?
      && !p.isSuperuser && !OwnsProperty(p, accommodations, loc)
    ensures InLanguage(loc.description, loc.language, detect) && AdminPolicyCheck(loc, detect).Some? ==>
      r == Err(LanguageRejected(AdminPolicyCheck(loc, detect).value))
    ensures Conforms(loc, detect) && (p.isSuperuser || OwnsProperty(p, accommodations, loc)) ==>
      && (Save(accommodations, st, target, loc, detect).Ok? ==> r == Ok(Save(accommodations, st, target, loc, detect).value))
      && (Save(accommodations, st, target, loc, detect).Err? ==>
            r == Err(ModelRejected(Save(accommodations, st, target, loc, detect).error)))
  {
    match DescriptionCheck(loc, detect)
    case Some(e) => Err(LanguageRejected(e))
    case None =>
      match AdminPolicyCheck(loc, detect)
      case Some(e) => Err(LanguageRejected(e))
      case None =>
        if !p.isSuperuser && accommodations[loc.property].owner != Some(p.id) then Err(Forbidden)
        else match Save(accommodations, st, target, loc, detect)
          case Ok(s) => Ok(s)
          case Err(e) => Err(ModelRejected(e))
  }

  /**
   A policy that is not a JSON object slips past the admin's own check: a non-owner is
   refused for ownership, while an owner is refused by the model's `clean()`.
   */
  lemma NonObjectPolicyInAdmin(accommodations: map<string, Accommodation>, st: LocalizationStore,
                               target: Option<nat>, loc: Localization, p: Principal, detect: Detector)
    requires loc.property in accommodations
    requires loc.policy.NotObject? && InLanguage(loc.description, loc.language, detect)
    ensures !p.isSuperuser && !OwnsProperty(p, accommodations, loc) ==>
      AdminSaveLocalization(accommodations, st, target, loc, p, detect) == Err(Forbidden)
    ensures p.isSuperuser || OwnsProperty(p, accommodations, loc) ==>
      AdminSaveLocalization(accommodations, st, target, loc, p, detect) == Err(ModelRejected(Invalid(PolicyNotObject)))
  {
  }
}

=== FILE: language_check.dfy ===
/**
 Language conformance of a localization (`LocalizeAccommodation.clean`) and the
 write path that always runs it (`LocalizeAccommodation.save`), over an in-memory
 table of localizations keyed by their auto-assigned id.
 */
module LanguageCheck {
  import opened Outcomes
  import opened Models

  /** langdetect's `detect`: the detected language code, or `None` when detection raises. */
  type Detector = string -> Option<string>

  /** The form field a validation error is reported under. */
  datatype Field = DescriptionField | PolicyField

  /** Why a localization is not valid. */
  datatype CleanError =
    | DescriptionNotInLanguage
    | DescriptionUndetected
    | PolicyValueNotInLanguage(key: string)
    | PolicyValueUndetected(key: string)
    | PolicyNotObject

  /** The field an error is reported under. */
  function FieldOf(e: CleanError): Field {
    match e
    case DescriptionNotInLanguage | DescriptionUndetected => DescriptionField
    case _ => PolicyField
  }

  /** True iff `text` is detected as written in `language`; a detection failure is not. */
  predicate InLanguage(text: string, language: string, detect: Detector) {
    detect(text) == Some(language)
  }

  /**
   The conformance rule: the description and every policy value are detected as written
   in the localization's language, and the policy is a JSON object.
   */
  predicate Conforms(loc: Localization, detect: Detector) {
    && InLanguage(loc.description, loc.language, detect)
    && loc.policy.Object?
    && forall i :: 0 <= i < |loc.policy.items| ==> InLanguage(loc.policy.items[i].value, loc.language, detect)
  }

  /** The index of the first policy entry, in iteration order, whose value is not in `language`. */
  function FirstOffending(items: seq<PolicyItem>, language: string, detect: Detector): (r: Option<nat>)
    ensures r.None? <==> forall i :: 0 <= i < |items| ==> InLanguage(items[i].value, language, detect)
    ensures r.Some? ==>
      && r.value < |items|
      && !InLanguage(items[r.value].value, language, detect)
      && forall j :: 0 <= j < r.value ==> InLanguage(items[j].value, language, detect)
  {
    if |items| == 0 then None
    else if !InLanguage(items[0].value, language, detect) then Some(0)
    else match FirstOffending(items[1..], language, detect)
      case None => None
      case Some(k) => Some(k + 1)
  }

  /** The error for the description: a failed detection and a mismatch are told apart only by message. */
  function DescriptionCheck(loc: Localization, detect: Detector): Option<CleanError> {
    match detect(loc.description)
    case None => Some(DescriptionUndetected)
    case Some(lang) => if lang != loc.language then Some(DescriptionNotInLanguage) else None
  }

  /** The error for the policy entries of an object policy: the first offending key. */
  function ItemsCheck(items: seq<PolicyItem>, language: string, detect: Detector): Option<CleanError> {
    match FirstOffending(items, language, detect)
    case None => None
    case Some(i) =>
      if detect(items[i].value).None? then Some(PolicyValueUndetected(items[i].key))
      else Some(PolicyValueNotInLanguage(items[i].key))
  }

  /**
   `clean()`: `None` when the localization conforms, otherwise the first error found.
   The description is checked before the policy, and policy errors name the first
   offending key in iteration order.
   */
  function Clean(loc: Localization, detect: Detector): (r: Option<CleanError>)
    ensures r.None? <==> Conforms(loc, detect)
    ensures !InLanguage(loc.description, loc.language, detect) ==> r.Some? && FieldOf(r.value) == DescriptionField
    ensures detect(loc.description).None? ==> r == Some(DescriptionUndetected)
    ensures detect(loc.description).Some? && !InLanguage(loc.description, loc.language, detect) ==>
      r == Some(DescriptionNotInLanguage)
    ensures InLanguage(loc.description, loc.language, detect) ==> r.None? || FieldOf(r.value) == PolicyField
    ensures InLanguage(loc.description, loc.language, detect) && loc.policy.NotObject? ==> r == Some(PolicyNotObject)
    ensures InLanguage(loc.description, loc.language, detect) && loc.policy.Object? ==>
      match FirstOffending(loc.policy.items, loc.language, detect)
      case None => r.None?
      case Some(i) =>
        r == Some(if detect(loc.policy.items[i].value).None? then PolicyValueUndetected(loc.policy.items[i].key)
                  else PolicyValueNotInLanguage(loc.policy.items[i].key))
  {
    match DescriptionCheck(loc, detect)
    case Some(e) => Some(e)
    case None =>
      match loc.policy
      case NotObject => Some(PolicyNotObject)
      case Object(items) => ItemsCheck(items, loc.language, detect)
  }

  /** An empty policy object passes: only the description decides. */
  lemma EmptyPolicyPasses(loc: Localization, detect: Detector)
    requires loc.policy == Object([])
    ensures Clean(loc, detect).None? <==> InLanguage(loc.description, loc.language, detect)
  {
  }

  /** The table of localizations: rows by id, and the next id the auto-increment hands out. */
  datatype LocalizationStore = LocalizationStore(rows: map<nat, Localization>, nextId: nat)

  /** Why a write was refused. */
  datatype SaveError =
    | Invalid(reason: CleanError)   // `clean()` raised
    | IdTaken                       // the next auto-assigned id is already used
    | DuplicateLanguage             // `(property, language)` already has another row
    | UnknownProperty               // the referenced accommodation does not exist

  /** A completed write: the new table and the id of the row written. */
  datatype Saved = Saved(store: LocalizationStore, id: nat)

  /** True iff a row other than `key` already holds `loc`'s `(property, language)` pair. */
  predicate PairTaken(rows: map<nat, Localization>, key: nat, loc: Localization) {
    exists k :: k in rows && k != key && rows[k].property == loc.property && rows[k].language == loc.language
  }

  /** At most one localization per `(property, language)` pair. */
  ghost predicate UniquePairs(rows: map<nat, Localization>) {
    forall a, b :: a in rows && b in rows && a != b ==>
      rows[a].property != rows[b].property || rows[a].language != rows[b].language
  }

  /** The table invariant: unique pairs, every row conforming, every row's property existing. */
  ghost predicate Valid(st: LocalizationStore, accommodations: map<string, Accommodation>, detect: Detector) {
    && UniquePairs(st.rows)
    && forall k :: k in st.rows ==> Conforms(st.rows[k], detect) && st.rows[k].property in accommodations
  }

  /**
   `save()`: `clean()` first, then the write, which the store refuses on a taken id, a
   duplicate `(property, language)` pair or an unknown property. `target` is the id of
   the row being edited, `None` for a new row.
   */
  function Save(accommodations: map<string, Accommodation>, st: LocalizationStore, target: Option<nat>,
                loc: Localization, detect: Detector): (r: Result<Saved, SaveError>)
    ensures !Conforms(loc, detect) ==> r == Err(Invalid(Clean(loc, detect).value))
    ensures r.Ok? <==>
      && Conforms(loc, detect)
      && !(target.None? && st.nextId in st.rows)
      && !PairTaken(st.rows, if target.Some? then target.value else st.nextId, loc)
      && loc.property in accommodations
    ensures r.Ok? ==> Conforms(loc, detect) && loc.property in accommodations
    ensures r.Ok? ==> !PairTaken(st.rows, r.value.id, loc)
    ensures r.Ok? && target.Some? ==> r.value.id == target.value && r.value.store.nextId == st.nextId
    ensures r.Ok? && target.None? ==> r.value.id !in st.rows && r.value.store.nextId == st.nextId + 1
    ensures r.Ok? ==>
      && r.value.store.rows.Keys == st.rows.Keys + {r.value.id}
      && r.value.store.rows[r.value.id] == loc
      && forall k :: k in st.rows && k != r.value.id ==> r.value.store.rows[k] == st.rows[k]
    ensures r.Ok? && Valid(st, accommodations, detect) ==> Valid(r.value.store, accommodations, detect)
  {
    match Clean(loc, detect)
    case Some(e) => Err(Invalid(e))
    case None =>
      var key := if target.Some? then target.value else st.nextId;
      if target.None? && key in st.rows then Err(IdTaken)
      else if PairTaken(st.rows, key, loc) then Err(DuplicateLanguage)
      else if loc.property !in accommodations then Err(UnknownProperty)
      else
        var rows := st.rows[key := loc];
        var next := if target.None? then st.nextId + 1 else st.nextId;
        Ok(Saved(LocalizationStore(rows, next), key))
  }

  /**
   A second localization for the same accommodation and language is never added as a
   new row: the write is refused and the table stays as it was.
   */
  lemma SecondLocalizationRefused(accommodations: map<string, Accommodation>, st: LocalizationStore,
                                  k: nat, loc: Localization, detect: Detector)
    requires k in st.rows && st.rows[k].property == loc.property && st.rows[k].language == loc.language
    ensures var r := Save(accommodations, st, None, loc, detect);
      r.Err? && (r.error.Invalid? || r.error == IdTaken || r.error == DuplicateLanguage)
  {
    var r := Save(accommodations, st, None, loc, detect);
    if Conforms(loc, detect) && st.nextId !in st.rows {
      assert PairTaken(st.rows, st.nextId, loc);
    }
  }

  /**
   Editing a stored localization, keeping its accommodation and language, succeeds when
   the new text conforms: the row is replaced in place under the same id.
   */
  lemma EditInPlace(accommodations: map<string, Accommodation>, st: LocalizationStore,
                    k: nat, loc: Localization, detect: Detector)
    requires Valid(st, accommodations, detect) && k in st.rows
    requires st.rows[k].property == loc.property && st.rows[k].language == loc.language
    requires Conforms(loc, detect)
    ensures Save(accommodations, st, Some(k), loc, detect) == Ok(Saved(LocalizationStore(st.rows[k := loc], st.nextId), k))
  {
  }
}

=== FILE: location_import.dfy ===
/**
 The admin's CSV bulk import of locations: every data row is parsed and upserted
 by `id`; a row that fails for any reason is counted as skipped and reported with
 its 1-based ordinal, and the import goes on with the next row.
 */
module LocationImport {
  import opened Outcomes
  import opened Models
  import Text
  import Seqs

  /** A CSV data row as a header-name to cell map; an absent key is a missing column. */
  type Row = map<string, string>

  /** Python's `float(token)`; `None` when the token is not a number. */
  type FloatParser = string -> Option<real>

  /** Why a row was skipped. */
  datatype RowError =
    | MissingColumn(name: string)     // `row[name]` raised KeyError
    | BadPointFormat(tokens: nat)     // `center` did not split into exactly two tokens
    | BadNumber(token: string)        // a coordinate token is not a float
    | ValueTooLong                    // the store refused a value wider than its column

  /** The per-row error message: the 1-based row ordinal and the error. */
  datatype Diagnostic = Diagnostic(row: nat, error: RowError)

  /** The values a successful row writes into its Location. */
  datatype LocationFields = LocationFields(
    id: string,
    title: string,
    center: Point,
    locationType: string,
    countryCode: string,
    stateAbbr: string,
    city: string)

  /** The running state of the import: the store and the two counters with the messages. */
  datatype ImportState = ImportState(
    store: map<string, Location>,
    total: nat,
    skipped: nat,
    diagnostics: seq<Diagnostic>)

  /** The columns read after `center`, in the order the row reads them. */
  const FieldColumns: seq<string> := ["id", "title", "location_type", "country_code", "state_abbr", "city"]

  /** The coordinate tokens of a `center` cell: drop every `POINT(` and `)`, then split on whitespace. */
  function CenterTokens(center: string): (ts: seq<string>)
    ensures forall i :: 0 <= i < |ts| ==> Text.IsWord(ts[i])
    ensures var stripped := Text.RemoveAll(Text.RemoveAll(center, "POINT("), ")");
      && |ts| == |Text.WordStartsFrom(stripped, 0)|
      && Text.Concat(ts) == Seqs.Filter(stripped, Text.NonSpace)
    ensures Text.Lacks(Text.Concat(ts), ')')
  {
    var stripped := Text.RemoveAll(Text.RemoveAll(center, "POINT("), ")");
    Text.TokensAreRuns(stripped);
    Text.TokensCoverText(stripped, Text.NonSpace);
    Text.Tokens(stripped)
  }

  /**
   Token `j` of a centre is the whole run of non-whitespace that starts at the `j`-th word
   start of the stripped text.
   */
  lemma CenterTokenBoundaries(center: string)
    ensures var stripped := Text.RemoveAll(Text.RemoveAll(center, "POINT("), ")");
      Text.RunsAt(stripped, Text.WordStartsFrom(stripped, 0), CenterTokens(center))
  {
    Text.TokensAreRuns(Text.RemoveAll(Text.RemoveAll(center, "POINT("), ")"));
  }

  /**
   Every `POINT(` is removed: an occurrence after a prefix without `P` leaves the same
   tokens as the text without it.
   */
  lemma CenterSkipsPoint(u: string, v: string)
    requires Text.Lacks(u, 'P')
    ensures CenterTokens(u + "POINT(" + v) == CenterTokens(u + v)
  {
    Text.RemoveStep(u, v, "POINT(");
    Text.RemoveAfterPrefix(u, v, "POINT(");
  }

  /** Removing the `POINT(` prefix from text without `(` leaves the rest. */
  lemma StripPointPrefix(t: string)
    requires Text.Lacks(t, '(')
    ensures Text.RemoveAll("POINT(" + t, "POINT(") == t
  {
    var s := "POINT(" + t;
    assert s[..6] == "POINT(" && s[6..] == t;
    Text.RemoveAbsent(t, "POINT(");
  }

  /** Removing `)` from text whose only `)` is the last character drops that character. */
  lemma StripClosingParen(u: string)
    requires Text.Lacks(u, ')')
    ensures Text.RemoveAll(u + ")", ")") == u
  {
    Text.RemoveAfterPrefix(u, ")", ")");
    assert Text.RemoveAll(")", ")") == "";
    assert u + "" == u;
  }

  /** The well-formed text `POINT(x y)` yields exactly the tokens `x` and `y`. */
  lemma PointTextTokens(x: string, y: string)
    requires Text.IsWord(x) && Text.IsWord(y)
    requires Text.Lacks(x, '(') && Text.Lacks(y, '(') && Text.Lacks(x, ')') && Text.Lacks(y, ')')
    ensures CenterTokens("POINT(" + x + " " + y + ")") == [x, y]
  {
    var body := x + " " + y;
    Text.LacksConcat(x, " ", '(');
    Text.LacksConcat(x + " ", y, '(');
    Text.LacksConcat(body, ")", '(');
    Text.LacksConcat(x, " ", ')');
    Text.LacksConcat(x + " ", y, ')');
    assert "POINT(" + x + " " + y + ")" == "POINT(" + (body + ")");
    StripPointPrefix(body + ")");
    StripClosingParen(body);
    assert body == Text.JoinWords([x, y]);
    Text.TokensOfJoin([x, y]);
  }

  /** The coordinate pair of a `center` cell, or why it has none. */
  function ParseCenter(center: string, parseFloat: FloatParser): (r: Result<Point, RowError>)
    ensures |CenterTokens(center)| != 2 ==> r == Err(BadPointFormat(|CenterTokens(center)|))
    ensures var ts := CenterTokens(center);
      |ts| == 2 && parseFloat(ts[0]).None? ==> r == Err(BadNumber(ts[0]))
    ensures var ts := CenterTokens(center);
      |ts| == 2 && parseFloat(ts[0]).Some? && parseFloat(ts[1]).None? ==> r == Err(BadNumber(ts[1]))
    ensures r.Ok? <==>
      (var ts := CenterTokens(center);
       |ts| == 2 && parseFloat(ts[0]).Some? && parseFloat(ts[1]).Some?)
    ensures r.Ok? ==>
      var ts := CenterTokens(center);
      r.value == Point(parseFloat(ts[0]).value, parseFloat(ts[1]).value)
  {
    var ts := CenterTokens(center);
    if |ts| != 2 then Err(BadPointFormat(|ts|))
    else match (parseFloat(ts[0]), parseFloat(ts[1]))
      case (None, _) => Err(BadNumber(ts[0]))
      case (Some(_), None) => Err(BadNumber(ts[1]))
      case (Some(x), Some(y)) => Ok(Point(x, y))
  }

  /** The first of `names` that the row lacks. */
  function FirstMissing(row: Row, names: seq<string>): (r: Option<string>)
    ensures r.None? <==> forall i :: 0 <= i < |names| ==> names[i] in row
    ensures r.Some? ==> r.value in names && r.value !in row
  {
    if |names| == 0 then None
    else if names[0] !in row then Some(names[0])
    else FirstMissing(row, names[1..])
  }

  /** True iff every value fits the width of the column it is written to. */
  predicate FitsColumns(f: LocationFields) {
    && |f.id| <= IdWidth
    && |f.title| <= TitleWidth
    && |f.locationType| <= LocationTypeWidth
    && |f.countryCode| <= CountryCodeWidth
    && |f.stateAbbr| <= StateAbbrWidth
    && |f.city| <= CityWidth
  }

  /** True iff the row carries every column the import reads. */
  predicate HasAllColumns(row: Row)
    ensures HasAllColumns(row) ==>
      && "id" in row && "title" in row && "location_type" in row
      && "country_code" in row && "state_abbr" in row && "city" in row
  {
    assert FieldColumns[0] == "id" && FieldColumns[1] == "title" && FieldColumns[2] == "location_type";
    assert FieldColumns[3] == "country_code" && FieldColumns[4] == "state_abbr" && FieldColumns[5] == "city";
    "center" in row && forall i :: 0 <= i < |FieldColumns| ==> FieldColumns[i] in row
  }

  /** The values a complete row writes, with its parsed center. */
  function FieldsOf(row: Row, center: Point): LocationFields
    requires HasAllColumns(row)
  {
    LocationFields(row["id"], row["title"], center, row["location_type"],
                   row["country_code"], row["state_abbr"], row["city"])
  }

  /**
   The work of one row before its write: read `center` and parse it, then read the
   other columns, then let the store check the column widths.
   */
  function ParseRow(row: Row, parseFloat: FloatParser): (r: Result<LocationFields, RowError>)
    ensures "center" !in row ==> r == Err(MissingColumn("center"))
    ensures "center" in row && |CenterTokens(row["center"])| != 2 ==>
      r == Err(BadPointFormat(|CenterTokens(row["center"])|))
    ensures r.Ok? <==>
      && HasAllColumns(row)
      && ParseCenter(row["center"], parseFloat).Ok?
      && FitsColumns(FieldsOf(row, ParseCenter(row["center"], parseFloat).value))
    ensures r.Ok? ==>
      && HasAllColumns(row)
      && r.value.center == ParseCenter(row["center"], parseFloat).value
      && r.value.id == row["id"] && r.value.title == row["title"]
      && r.value.locationType == row["location_type"] && r.value.countryCode == row["country_code"]
      && r.value.stateAbbr == row["state_abbr"] && r.value.city == row["city"]
  {
    if "center" !in row then Err(MissingColumn("center"))
    else match ParseCenter(row["center"], parseFloat)
      case Err(e) => Err(e)
      case Ok(p) =>
        match FirstMissing(row, FieldColumns)
        case Some(name) =>
          Err(MissingColumn(name))
        case None =>
          var f := FieldsOf(row, p);
          if FitsColumns(f) then Ok(f) else Err(ValueTooLong)
  }

  /** True iff the row is skipped whatever the store holds. */
  predicate RowFails(parseFloat: FloatParser, row: Row) {
    ParseRow(row, parseFloat).Err?
  }

  /** The Location a write of `f` leaves behind; the parent link is not a CSV column. */
  function FromFields(f: LocationFields, parent: Option<string>): Location {
    Location(f.id, f.title, f.center, parent, f.locationType, f.countryCode, f.stateAbbr, f.city)
  }

  /** The parent link of the stored location `id`, `None` when there is none. */
  function ParentOf(store: map<string, Location>, id: string): Option<string> {
    if id in store then store[id].parent else None
  }

  /**
   Create-or-update keyed by `f.id`: that Location takes the row's values (keeping its
   parent when it already existed), and every other location is left as it was.
   */
  function Upsert(store: map<string, Location>, f: LocationFields): (r: map<string, Location>)
    ensures r.Keys == store.Keys + {f.id}
    ensures r[f.id].id == f.id && r[f.id].title == f.title && r[f.id].center == f.center
    ensures r[f.id].locationType == f.locationType && r[f.id].countryCode == f.countryCode
    ensures r[f.id].stateAbbr == f.stateAbbr && r[f.id].city == f.city
    ensures f.id in store ==> r[f.id].parent == store[f.id].parent
    ensures f.id !in store ==> r[f.id].parent.None?
    ensures forall k :: k in store && k != f.id ==> r[k] == store[k]
  {
    store[f.id := FromFields(f, ParentOf(store, f.id))]
  }

  /** One iteration of the row loop: count the row, then write it or record its failure. */
  function ImportRow(st: ImportState, row: Row, parseFloat: FloatParser): ImportState {
    var n := st.total + 1;
    match ParseRow(row, parseFloat)
    case Ok(f) => st.(store := Upsert(st.store, f), total := n)
    case Err(e) => st.(total := n, skipped := st.skipped + 1, diagnostics := st.diagnostics + [Diagnostic(n, e)])
  }

  /** True iff some message reports row ordinal `n`. */
  predicate Reported(diagnostics: seq<Diagnostic>, n: nat) {
    exists j :: 0 <= j < |diagnostics| && diagnostics[j].row == n
  }

  /** The import of `rows` into `store`: every row is counted, and nothing is ever deleted. */
  function Import(store: map<string, Location>, rows: seq<Row>, parseFloat: FloatParser): (r: ImportState)
    ensures r.total == |rows|
    ensures r.skipped <= r.total
    ensures |r.diagnostics| == r.skipped
    ensures store.Keys <= r.store.Keys
  {
    if |rows| == 0 then ImportState(store, 0, 0, [])
    else ImportRow(Import(store, rows[..|rows| - 1], parseFloat), rows[|rows| - 1], parseFloat)
  }

  /** Each message names a row of `rows` that failed, with that row's own error. */
  ghost predicate MessagesSound(rows: seq<Row>, parseFloat: FloatParser, d: seq<Diagnostic>) {
    forall j :: 0 <= j < |d| ==> 1 <= d[j].row <= |rows| && ParseRow(rows[d[j].row - 1], parseFloat) == Err(d[j].error)
  }

  /** The messages come in strictly increasing row order. */
  ghost predicate MessagesIncreasing(d: seq<Diagnostic>) {
    forall j, k :: 0 <= j < k < |d| ==> d[j].row < d[k].row
  }

  /** Every failing row of `rows` is named by some message. */
  ghost predicate MessagesComplete(rows: seq<Row>, parseFloat: FloatParser, d: seq<Diagnostic>) {
    forall i :: 0 <= i < |rows| && RowFails(parseFloat, rows[i]) ==> Reported(d, i + 1)
  }

  /** Each message names a row that failed, with that row's own error. */
  lemma {:induction false} DiagnosticsSound(store: map<string, Location>, rows: seq<Row>, parseFloat: FloatParser)
    ensures MessagesSound(rows, parseFloat, Import(store, rows, parseFloat).diagnostics)
    decreases |rows|
  {
    if |rows| > 0 {
      var front, last := rows[..|rows| - 1], rows[|rows| - 1];
      DiagnosticsSound(store, front, parseFloat);
      var p := Import(store, front, parseFloat).diagnostics;
      var d := Import(store, rows, parseFloat).diagnostics;
      assert MessagesSound(front, parseFloat, p);
      forall j | 0 <= j < |d|
        ensures 1 <= d[j].row <= |rows| && ParseRow(rows[d[j].row - 1], parseFloat) == Err(d[j].error)
      {
        if j < |p| {
          assert d[j] == p[j];
          assert front[p[j].row - 1] == rows[p[j].row - 1];
        }
      }
    }
  }

  /** The messages come in increasing row order. */
  lemma {:induction false} DiagnosticsIncreasing(store: map<string, Location>, rows: seq<Row>, parseFloat: FloatParser)
    ensures MessagesIncreasing(Import(store, rows, parseFloat).diagnostics)
    decreases |rows|
  {
    if |rows| > 0 {
      var front := rows[..|rows| - 1];
      DiagnosticsIncreasing(store, front, parseFloat);
      DiagnosticsSound(store, front, parseFloat);
      var p := Import(store, front, parseFloat).diagnostics;
      assert MessagesSound(front, parseFloat, p);
      assert forall j :: 0 <= j < |p| ==> p[j].row <= |front|;
    }
  }

  /** Every failing row is named by some message. */
  lemma {:induction false} DiagnosticsComplete(store: map<string, Location>, rows: seq<Row>, parseFloat: FloatParser)
    ensures MessagesComplete(rows, parseFloat, Import(store, rows, parseFloat).diagnostics)
    decreases |rows|
  {
    if |rows| > 0 {
      var front := rows[..|rows| - 1];
      DiagnosticsComplete(store, front, parseFloat);
      var p := Import(store, front, parseFloat).diagnostics;
      var d := Import(store, rows, parseFloat).diagnostics;
      assert MessagesComplete(front, parseFloat, p);
      assert |p| <= |d| && forall j :: 0 <= j < |p| ==> d[j] == p[j];
      forall i | 0 <= i < |rows| && RowFails(parseFloat, rows[i])
        ensures Reported(d, i + 1)
      {
        if i < |front| {
          assert front[i] == rows[i];
          assert Reported(p, i + 1);
          var j :| 0 <= j < |p| && p[j].row == i + 1;
          assert d[j] == p[j];
        } else {
          assert d[|p|].row == i + 1;
        }
      }
    }
  }

  /** The number of rows the import skips: those that fail on their own. */
  function FailureCount(rows: seq<Row>, parseFloat: FloatParser): nat {
    |Seqs.Filter(rows, row => RowFails(parseFloat, row))|
  }

  /** The skip counter equals the number of failing rows, so the imported count is the rest. */
  lemma {:induction false} SkippedCountsFailures(store: map<string, Location>, rows: seq<Row>, parseFloat: FloatParser)
    ensures Import(store, rows, parseFloat).skipped == FailureCount(rows, parseFloat)
    ensures Import(store, rows, parseFloat).total - Import(store, rows, parseFloat).skipped
         == |rows| - FailureCount(rows, parseFloat)
    decreases |rows|
  {
    if |rows| > 0 {
      var front, last := rows[..|rows| - 1], rows[|rows| - 1];
      SkippedCountsFailures(store, front, parseFloat);
      assert front + [last] == rows;
      Seqs.FilterAppend(front, [last], row => RowFails(parseFloat, row));
    }
  }

  /** Whether a row fails, and the message it gets, never depend on the store. */
  lemma {:induction false} FailuresIndependentOfStore(s1: map<string, Location>, s2: map<string, Location>,
                                                       rows: seq<Row>, parseFloat: FloatParser)
    ensures Import(s1, rows, parseFloat).skipped == Import(s2, rows, parseFloat).skipped
    ensures Import(s1, rows, parseFloat).diagnostics == Import(s2, rows, parseFloat).diagnostics
    decreases |rows|
  {
    if |rows| > 0 {
      FailuresIndependentOfStore(s1, s2, rows[..|rows| - 1], parseFloat);
    }
  }

  /** The values of the last row that writes location `k`, if any row does. */
  function LastWrite(rows: seq<Row>, parseFloat: FloatParser, k: string): Option<LocationFields> {
    if |rows| == 0 then None
    else match ParseRow(rows[|rows| - 1], parseFloat)
      case Ok(f) => if f.id == k then Some(f) else LastWrite(rows[..|rows| - 1], parseFloat, k)
      case Err(_) => LastWrite(rows[..|rows| - 1], parseFloat, k)
  }

  /**
   The store after the import, location by location: a location written by some row
   holds the values of the LAST such row (over the original parent link); a location
   no row writes is exactly as before; nothing else appears.
   */
  lemma {:induction false} ImportedStore(store: map<string, Location>, rows: seq<Row>, parseFloat: FloatParser, k: string)
    ensures k in Import(store, rows, parseFloat).store <==> k in store || LastWrite(rows, parseFloat, k).Some?
    ensures LastWrite(rows, parseFloat, k).Some? ==>
      Import(store, rows, parseFloat).store[k] == FromFields(LastWrite(rows, parseFloat, k).value, ParentOf(store, k))
    ensures LastWrite(rows, parseFloat, k).None? && k in store ==> Import(store, rows, parseFloat).store[k] == store[k]
    decreases |rows|
  {
    if |rows| > 0 {
      var front := rows[..|rows| - 1];
      ImportedStore(store, front, parseFloat, k);
      var prev := Import(store, front, parseFloat);
      match ParseRow(rows[|rows| - 1], parseFloat)
      case Ok(f) =>
        if f.id == k {
          assert ParentOf(prev.store, k) == ParentOf(store, k);
        }
      case Err(_) =>
    }
  }

  /** There is no rollback: when every row from `m` on fails, the store is the one left after row `m`. */
  lemma {:induction false} FailuresKeepEarlierWrites(store: map<string, Location>, rows: seq<Row>,
                                                     parseFloat: FloatParser, m: nat)
    requires m <= |rows|
    requires forall i :: m <= i < |rows| ==> RowFails(parseFloat, rows[i])
    ensures Import(store, rows, parseFloat).store == Import(store, rows[..m], parseFloat).store
    decreases |rows|
  {
    if |rows| > m {
      var front := rows[..|rows| - 1];
      assert front[..m] == rows[..m];
      FailuresKeepEarlierWrites(store, front, parseFloat, m);
    } else {
      assert rows[..m] == rows;
    }
  }

  /**
   The import loop as the admin action runs it. Returns the new store, the counts of
   the summary message ("N rows imported, M rows skipped") and the per-row messages.
   */
  method ImportCsv(store: map<string, Location>, rows: seq<Row>, parseFloat: FloatParser)
    returns (result: map<string, Location>, imported: nat, skipped: nat, diagnostics: seq<Diagnostic>)
    ensures result == Import(store, rows, parseFloat).store
    ensures diagnostics == Import(store, rows, parseFloat).diagnostics
    ensures imported + skipped == |rows|
    ensures skipped == |diagnostics| == FailureCount(rows, parseFloat)
    ensures MessagesSound(rows, parseFloat, diagnostics) && MessagesIncreasing(diagnostics)
    ensures MessagesComplete(rows, parseFloat, diagnostics)
  {
    var st := ImportState(store, 0, 0, []);
    var totalRows := 0;
    while totalRows < |rows|
      invariant totalRows <= |rows|
      invariant st == Import(store, rows[..totalRows], parseFloat)
    {
      assert rows[..totalRows + 1][..totalRows] == rows[..totalRows];
      st := ImportRow(st, rows[totalRows], parseFloat);
      totalRows := totalRows + 1;
    }
    assert rows[..totalRows] == rows;
    SkippedCountsFailures(store, rows, parseFloat);
    DiagnosticsSound(store, rows, parseFloat);
    DiagnosticsIncreasing(store, rows, parseFloat);
    DiagnosticsComplete(store, rows, parseFloat);
    result, skipped, diagnostics := st.store, st.skipped, st.diagnostics;
    imported := st.total - st.skipped;
  }
}

=== FILE: models.dfy ===
/**
 The three stored entities (Location, Accommodation, LocalizeAccommodation), the
 requesting principal, and the entities' display strings.
 */
module Models {
  import opened Outcomes
  import Text

  /** A user's primary key. */
  type UserId = nat

  /** The requesting user of an admin or API call. */
  datatype Principal = Principal(id: UserId, isSuperuser: bool)

  /** A geographic point: longitude and latitude. */
  datatype Point = Point(x: real, y: real)

  /**
   A location; `parent` is the optional id of the enclosing location.
   The import keeps the locations table as a `map<string, Location>` keyed by id, since it
   looks rows up and overwrites them by id; the views and the sitemap read the same table as a
   `seq<Location>` in the order the query returns it.
   */
  datatype Location = Location(
    id: string,
    title: string,
    center: Point,
    parent: Option<string>,
    locationType: string,
    countryCode: string,
    stateAbbr: string,
    city: string)

  /**
   A rentable property. `reviewScore` is held in tenths and `usdRate` in cents,
   matching the one- and two-decimal fixed-point columns.
   */
  datatype Accommodation = Accommodation(
    id: string,
    feed: nat,
    title: string,
    countryCode: string,
    bedroomCount: nat,
    reviewScore: int,
    usdRate: int,
    center: Point,
    location: string,
    owner: Option<UserId>,
    published: bool)

  /** One key/value entry of a localized policy, in dictionary iteration order. */
  datatype PolicyItem = PolicyItem(key: string, value: string)

  /** The `policy` JSON value: an object, or any other JSON value. */
  datatype Policy = Object(items: seq<PolicyItem>) | NotObject

  /** A per-language description and policy of the accommodation whose id is `property`. */
  datatype Localization = Localization(
    property: string,
    language: string,
    description: string,
    policy: Policy)

  /** Column widths (`max_length`) of the Location character columns. */
  const IdWidth: nat := 20
  const TitleWidth: nat := 100
  const LocationTypeWidth: nat := 20
  const CountryCodeWidth: nat := 2
  const StateAbbrWidth: nat := 3
  const CityWidth: nat := 30

  /** `str(localization)`: the upper-cased language, `" - "`, then the property's title. */
  function LocalizationLabel(loc: Localization, propertyTitle: string): (r: string)
    ensures |r| == |loc.language| + 3 + |propertyTitle|
    ensures r[..|loc.language|] == Text.Upper(loc.language)
    ensures r[|loc.language|..|loc.language| + 3] == " - "
    ensures r[|loc.language| + 3..] == propertyTitle
  {
    Text.Upper(loc.language) + " - " + propertyTitle
  }

  /** Every `en` localization is labelled `EN - ` followed by its property's title. */
  lemma EnglishLabel(id: string, d: string, p: Policy, title: string)
    ensures LocalizationLabel(Localization(id, "en", d, p), title) == "EN - " + title
  {
    var u := Text.Upper("en");
    assert u[0] == 'E' && u[1] == 'N';
    assert u == "EN";
    assert u + " - " == "EN - ";
  }
}

=== FILE: outcomes.dfy ===
/** Failure-carrying values shared by every module of the model. */
module Outcomes {

  /** An optional value: `None` stands for Python's `None` or a missing entry. */
  datatype Option<T> = None | Some(value: T)

  /** The result of an operation that either succeeds with a value or raises an error. */
  datatype Result<T, E> = Ok(value: T) | Err(error: E)
}

=== FILE: read_api.dfy ===
/**
 The read-only JSON endpoints: the paginated location list filtered by type and
 ordered by id, the children of a location, the paginated accommodation list
 filtered by published flag and country, and the accommodations of one owner.
 */
module ReadApi {
  import opened Outcomes
  import opened Models
  import Seqs

  /** Python's `int(text)`; `None` when it raises `ValueError`. */
  type IntParser = string -> Option<int>

  /** The fields a location list row carries. */
  datatype LocationRow = LocationRow(id: string, title: string, locationType: string, countryCode: string, city: string)

  /** The fields an accommodation list row carries. */
  datatype AccommodationRow = AccommodationRow(
    id: string, title: string, countryCode: string, bedroomCount: nat, usdRate: int, published: bool)

  function LocationRowOf(l: Location): LocationRow {
    LocationRow(l.id, l.title, l.locationType, l.countryCode, l.city)
  }

  function AccommodationRowOf(a: Accommodation): AccommodationRow {
    AccommodationRow(a.id, a.title, a.countryCode, a.bedroomCount, a.usdRate, a.published)
  }

  /** Ascending order of ids, compared code point by code point. */
  predicate IdBefore(a: string, b: string) {
    if |a| == 0 then |b| > 0
    else if |b| == 0 then false
    else if a[0] != b[0] then a[0] < b[0]
    else IdBefore(a[1..], b[1..])
  }

  /** A query parameter filters only when it is present and non-empty. */
  predicate Active(param: Option<string>) {
    param.Some? && param.value != ""
  }

  /** True iff a location passes the `type` filter. */
  predicate MatchesType(typeParam: Option<string>, l: Location) {
    !Active(typeParam) || l.locationType == typeParam.value
  }

  /**
   The whole location list before paging: the rows of `table` (the locations in id
   order) whose type matches, projected, order kept.
   */
  function LocationListing(table: seq<Location>, typeParam: Option<string>): (r: seq<LocationRow>)
    ensures |r| <= |table|
    ensures !Active(typeParam) ==> |r| == |table|
    ensures Active(typeParam) ==> forall i :: 0 <= i < |r| ==> r[i].locationType == typeParam.value
    ensures forall i :: 0 <= i < |r| ==> exists j :: 0 <= j < |table| && LocationRowOf(table[j]) == r[i]
    ensures forall j :: 0 <= j < |table| && MatchesType(typeParam, table[j]) ==> LocationRowOf(table[j]) in r
    ensures exists idx :: Seqs.Embeds(r, Seqs.Map(table, LocationRowOf), idx)
  {
    var keep := (l: Location) => MatchesType(typeParam, l);
    var kept := Seqs.Filter(table, keep);
    var r := Seqs.Map(kept, LocationRowOf);
    Seqs.FilterEmbeds(table, keep);
    Seqs.MapEmbeds(kept, table, Seqs.FilterIndices(table, keep), LocationRowOf);
    assert forall i :: 0 <= i < |r| ==> r[i] == LocationRowOf(kept[i]) && kept[i] in table;
    assert forall j :: 0 <= j < |table| && MatchesType(typeParam, table[j]) ==> table[j] in kept;
    r
  }

  /** The list keeps the id order of the table it is drawn from. */
  lemma ListingKeepsIdOrder(table: seq<Location>, typeParam: Option<string>)
    requires Seqs.StrictlySorted(table, (a: Location, b: Location) => IdBefore(a.id, b.id))
    ensures Seqs.StrictlySorted(LocationListing(table, typeParam), (a: LocationRow, b: LocationRow) => IdBefore(a.id, b.id))
  {
    var less := (a: Location, b: Location) => IdBefore(a.id, b.id);
    var kept := Seqs.Filter(table, (l: Location) => MatchesType(typeParam, l));
    Seqs.FilterKeepsOrder(table, (l: Location) => MatchesType(typeParam, l), less);
    Seqs.MapKeepsOrder(kept, LocationRowOf, less, (a: LocationRow, b: LocationRow) => IdBefore(a.id, b.id));
  }

  /** One page of the location list: at most ten consecutive rows of the listing. */
  function LocationListPage(table: seq<Location>, typeParam: Option<string>, page: nat): (r: seq<LocationRow>)
    requires page >= 1
    ensures |r| <= Seqs.PageSize
    ensures forall i :: 0 <= i < |r| ==>
      var k := (page - 1) * Seqs.PageSize + i;
      k < |LocationListing(table, typeParam)| && r[i] == LocationListing(table, typeParam)[k]
    ensures |r| < Seqs.PageSize ==> (page - 1) * Seqs.PageSize + |r| >= |LocationListing(table, typeParam)|
  {
    Seqs.PageOf(LocationListing(table, typeParam), page)
  }

  /** The children response: the parent's title and its direct children. */
  datatype ChildrenView = ChildrenView(parent: string, children: seq<LocationRow>)

  /** The 404 answer for an unknown id. */
  datatype NotFound = NotFound

  /** The position of the location with id `id`. */
  function FindLocation(table: seq<Location>, id: string): (r: Option<nat>)
    ensures r.None? <==> forall i :: 0 <= i < |table| ==> table[i].id != id
    ensures r.Some? ==> r.value < |table| && table[r.value].id == id
  {
    if |table| == 0 then None
    else if table[0].id == id then Some(0)
    else match FindLocation(table[1..], id)
      case None => None
      case Some(k) => Some(k + 1)
  }

  /** True iff `l` is a direct child of the location `id`. */
  predicate ChildOf(id: string, l: Location) {
    l.parent == Some(id)
  }

  /**
   `location_children`: not found for an unknown id, otherwise that location's title
   and exactly its direct children, projected.
   */
  function LocationChildren(table: seq<Location>, id: string): (r: Result<ChildrenView, NotFound>)
    ensures r.Err? <==> forall i :: 0 <= i < |table| ==> table[i].id != id
    ensures r.Ok? ==> exists i :: 0 <= i < |table| && table[i].id == id && table[i].title == r.value.parent
    ensures r.Ok? ==> forall k :: 0 <= k < |r.value.children| ==>
      exists j :: 0 <= j < |table| && ChildOf(id, table[j]) && LocationRowOf(table[j]) == r.value.children[k]
    ensures r.Ok? ==> forall j :: 0 <= j < |table| && ChildOf(id, table[j]) ==> LocationRowOf(table[j]) in r.value.children
    ensures r.Ok? ==> exists idx :: Seqs.Embeds(r.value.children, Seqs.Map(table, LocationRowOf), idx)
  {
    match FindLocation(table, id)
    case None => Err(NotFound)
    case Some(i) =>
      var keep := (l: Location) => ChildOf(id, l);
      var kids := Seqs.Filter(table, keep);
      var rows := Seqs.Map(kids, LocationRowOf);
      assert Seqs.Embeds(rows, Seqs.Map(table, LocationRowOf), Seqs.FilterIndices(table, keep)) by {
        Seqs.FilterEmbeds(table, keep);
        Seqs.MapEmbeds(kids, table, Seqs.FilterIndices(table, keep), LocationRowOf);
      }
      assert forall k :: 0 <= k < |rows| ==> rows[k] == LocationRowOf(kids[k]) && kids[k] in table;
      assert forall j :: 0 <= j < |table| && ChildOf(id, table[j]) ==> table[j] in kids;
      Ok(ChildrenView(table[i].title, rows))
  }

  /** Why the accommodation list answered with an error: `published` is not an integer. */
  datatype ParamError = PublishedNotInteger(text: string)

  /** True iff an accommodation passes both filters; `published` is already read as a flag. */
  predicate MatchesListing(published: Option<bool>, country: Option<string>, a: Accommodation) {
    && (published.None? || a.published == published.value)
    && (!Active(country) || a.countryCode == country.value)
  }

  /** The projected rows of the accommodations that pass both filters, in table order. */
  function MatchingRows(table: seq<Accommodation>, flag: Option<bool>, country: Option<string>)
    : (r: seq<AccommodationRow>)
    ensures |r| <= |table|
    ensures flag.Some? ==> forall i :: 0 <= i < |r| ==> r[i].published == flag.value
    ensures Active(country) ==> forall i :: 0 <= i < |r| ==> r[i].countryCode == country.value
    ensures forall i :: 0 <= i < |r| ==> exists j :: 0 <= j < |table| && AccommodationRowOf(table[j]) == r[i]
    ensures forall j :: 0 <= j < |table| && MatchesListing(flag, country, table[j]) ==> AccommodationRowOf(table[j]) in r
  {
    var keep := (a: Accommodation) => MatchesListing(flag, country, a);
    var kept := Seqs.Filter(table, keep);
    var rows := Seqs.Map(kept, AccommodationRowOf);
    assert forall i :: 0 <= i < |kept| ==> MatchesListing(flag, country, kept[i]) && kept[i] in table;
    assert forall i :: 0 <= i < |rows| ==> rows[i] == AccommodationRowOf(kept[i]);
    assert forall j :: 0 <= j < |table| && MatchesListing(flag, country, table[j]) ==> table[j] in kept;
    rows
  }

  /**
   The whole accommodation list before paging. A present `published` must read as an
   integer and keeps the rows whose flag equals `int(published) != 0`; a non-empty
   `country` keeps the rows of that country; both together keep what passes both.
   */
  function AccommodationListing(table: seq<Accommodation>, published: Option<string>, country: Option<string>,
                                parseInt: IntParser): (r: Result<seq<AccommodationRow>, ParamError>)
    ensures r.Err? <==> published.Some? && parseInt(published.value).None?
    ensures r.Ok? ==> |r.value| <= |table|
    ensures r.Ok? && published.Some? ==>
      forall i :: 0 <= i < |r.value| ==> r.value[i].published == (parseInt(published.value).value != 0)
    ensures r.Ok? && Active(country) ==> forall i :: 0 <= i < |r.value| ==> r.value[i].countryCode == country.value
    ensures r.Ok? ==> forall i :: 0 <= i < |r.value| ==>
      exists j :: 0 <= j < |table| && AccommodationRowOf(table[j]) == r.value[i]
    ensures r.Ok? ==> forall j :: 0 <= j < |table| ==>
      && (published.None? || table[j].published == (parseInt(published.value).value != 0))
      && (!Active(country) || table[j].countryCode == country.value)
      ==> AccommodationRowOf(table[j]) in r.value
  {
    if published.None? then Ok(MatchingRows(table, None, country))
    else match parseInt(published.value)
      case None => Err(PublishedNotInteger(published.value))
      case Some(n) => Ok(MatchingRows(table, Some(n != 0), country))
  }

  /** The accommodation list is the projected table with rows dropped, the rest in table order. */
  lemma AccommodationListingInTableOrder(table: seq<Accommodation>, published: Option<string>,
                                         country: Option<string>, parseInt: IntParser)
    requires AccommodationListing(table, published, country, parseInt).Ok?
    ensures exists idx :: Seqs.Embeds(AccommodationListing(table, published, country, parseInt).value,
                                       Seqs.Map(table, AccommodationRowOf), idx)
  {
    var flag := if published.None? then None else Some(parseInt(published.value).value != 0);
    var keep := (a: Accommodation) => MatchesListing(flag, country, a);
    var kept := Seqs.Filter(table, keep);
    assert AccommodationListing(table, published, country, parseInt).value == Seqs.Map(kept, AccommodationRowOf);
    Seqs.FilterEmbeds(table, keep);
    Seqs.MapEmbeds(kept, table, Seqs.FilterIndices(table, keep), AccommodationRowOf);
  }

  /** Without query parameters nothing is filtered out. */
  lemma NoParametersListsAll(table: seq<Accommodation>, parseInt: IntParser)
    ensures AccommodationListing(table, None, None, parseInt) == Ok(Seqs.Map(table, AccommodationRowOf))
  {
  }

  /** Both filters together give the published-filtered list narrowed to the country. */
  lemma FiltersCombine(table: seq<Accommodation>, published: string, country: string, parseInt: IntParser)
    requires parseInt(published).Some? && country != ""
    ensures AccommodationListing(table, Some(published), Some(country), parseInt)
         == Ok(Seqs.Filter(AccommodationListing(table, Some(published), None, parseInt).value,
                           (row: AccommodationRow) => row.countryCode == country))
  {
    var flag := Some(parseInt(published).value != 0);
    var both := (a: Accommodation) => MatchesListing(flag, Some(country), a);
    var pub := (a: Accommodation) => MatchesListing(flag, None, a);
    var cty := (a: Accommodation) => a.countryCode == country;
    var rowCty := (row: AccommodationRow) => row.countryCode == country;
    Seqs.FilterFilter(table, pub, cty, both);
    Seqs.MapFilter(Seqs.Filter(table, pub), AccommodationRowOf, rowCty, cty);
  }

  /** One page of the accommodation list: at most ten consecutive rows of the listing. */
  function AccommodationListPage(table: seq<Accommodation>, published: Option<string>, country: Option<string>,
                                 parseInt: IntParser, page: nat): (r: Result<seq<AccommodationRow>, ParamError>)
    requires page >= 1
    ensures r.Err? <==> AccommodationListing(table, published, country, parseInt).Err?
    ensures r.Ok? ==> |r.value| <= Seqs.PageSize
    ensures r.Ok? ==> forall i :: 0 <= i < |r.value| ==>
      var k := (page - 1) * Seqs.PageSize + i;
      k < |AccommodationListing(table, published, country, parseInt).value|
      && r.value[i] == AccommodationListing(table, published, country, parseInt).value[k]
    ensures r.Ok? && |r.value| < Seqs.PageSize ==>
      (page - 1) * Seqs.PageSize + |r.value| >= |AccommodationListing(table, published, country, parseInt).value|
  {
    match AccommodationListing(table, published, country, parseInt)
    case Err(e) => Err(e)
    case Ok(rows) => Ok(Seqs.PageOf(rows, page))
  }

  /** `accommodation_by_user`: exactly the accommodations whose owner is `user`, projected. */
  function AccommodationsByUser(table: seq<Accommodation>, user: UserId): (r: seq<AccommodationRow>)
    ensures forall i :: 0 <= i < |r| ==>
      exists j :: 0 <= j < |table| && table[j].owner == Some(user) && AccommodationRowOf(table[j]) == r[i]
    ensures forall j :: 0 <= j < |table| && table[j].owner == Some(user) ==> AccommodationRowOf(table[j]) in r
    ensures exists idx :: Seqs.Embeds(r, Seqs.Map(table, AccommodationRowOf), idx)
  {
    var keep := (a: Accommodation) => a.owner == Some(user);
    var kept := Seqs.Filter(table, keep);
    var rows := Seqs.Map(kept, AccommodationRowOf);
    Seqs.FilterEmbeds(table, keep);
    Seqs.MapEmbeds(kept, table, Seqs.FilterIndices(table, keep), AccommodationRowOf);
    assert forall i :: 0 <= i < |rows| ==> rows[i] == AccommodationRowOf(kept[i]) && kept[i] in table;
    assert forall j :: 0 <= j < |table| && table[j].owner == Some(user) ==> table[j] in kept;
    rows
  }
}

=== FILE: seqs.dfy ===
/**
 Query-set operations over sequences: filtering (`.filter(...)`), projecting
 (`.values(...)`) and slicing into fixed-size pages.
 */
module Seqs {

  /** The elements of `s` that satisfy `p`, in their original order. */
  function Filter<T>(s: seq<T>, p: T -> bool): (r: seq<T>)
    ensures |r| <= |s|
    ensures forall i :: 0 <= i < |r| ==> r[i] in s && p(r[i])
    ensures forall i :: 0 <= i < |s| && p(s[i]) ==> s[i] in r
    ensures (forall i :: 0 <= i < |s| ==> p(s[i])) ==> r == s
  {
    if |s| == 0 then []
    else if p(s[0]) then [s[0]] + Filter(s[1..], p)
    else Filter(s[1..], p)
  }

  /** Filtering distributes over concatenation. */
  lemma {:induction false} FilterAppend<T>(s: seq<T>, t: seq<T>, p: T -> bool)
    ensures Filter(s + t, p) == Filter(s, p) + Filter(t, p)
    decreases |s|
  {
    if |s| == 0 {
      assert s + t == t;
    } else {
      assert (s + t)[1..] == s[1..] + t;
      FilterAppend(s[1..], t, p);
    }
  }

  /** A prefix that the filter keeps whole comes out unchanged in front of the rest. */
  lemma {:induction false} FilterKeptPrefix<T>(s: seq<T>, n: nat, p: T -> bool)
    requires n <= |s| && forall i :: 0 <= i < n ==> p(s[i])
    ensures Filter(s, p) == s[..n] + Filter(s[n..], p)
  {
    var u, v := s[..n], s[n..];
    calc {
      Filter(s, p);
      { assert u + v == s; }
      Filter(u + v, p);
      { FilterAppend(u, v, p); }
      Filter(u, p) + Filter(v, p);
      { assert forall i :: 0 <= i < |u| ==> p(u[i]); }
      u + Filter(v, p);
    }
  }

  /** Applying one filter after another keeps exactly what satisfies both. */
  lemma {:induction false} FilterFilter<T>(s: seq<T>, p: T -> bool, q: T -> bool, pq: T -> bool)
    requires forall x :: pq(x) == (p(x) && q(x))
    ensures Filter(Filter(s, p), q) == Filter(s, pq)
    decreases |s|
  {
    if |s| > 0 {
      FilterFilter(s[1..], p, q, pq);
    }
  }

  /**
   `r` is `s` with some elements dropped and the rest in their original order: `idx`
   lists, increasing, the positions in `s` that `r`'s elements come from.
   */
  ghost predicate Embeds<T>(r: seq<T>, s: seq<T>, idx: seq<nat>) {
    && |idx| == |r|
    && (forall i :: 0 <= i < |idx| ==> idx[i] < |s| && r[i] == s[idx[i]])
    && (forall i, j :: 0 <= i < j < |idx| ==> idx[i] < idx[j])
  }

  /** The positions in `s` of the elements that satisfy `p`, in increasing order. */
  function FilterIndices<T>(s: seq<T>, p: T -> bool): seq<nat> {
    if |s| == 0 then []
    else
      var rest := FilterIndices(s[1..], p);
      var shifted := seq(|rest|, i requires 0 <= i < |rest| => rest[i] + 1);
      if p(s[0]) then [0] + shifted else shifted
  }

  /** Filtering keeps the order of what it keeps. */
  lemma {:induction false} FilterEmbeds<T>(s: seq<T>, p: T -> bool)
    ensures Embeds(Filter(s, p), s, FilterIndices(s, p))
    decreases |s|
  {
    if |s| > 0 {
      var tail := Filter(s[1..], p);
      var rest := FilterIndices(s[1..], p);
      FilterEmbeds(s[1..], p);
      var shifted := seq(|rest|, i requires 0 <= i < |rest| => rest[i] + 1);
      assert Embeds(tail, s, shifted) by {
        forall i | 0 <= i < |shifted|
          ensures shifted[i] < |s| && tail[i] == s[shifted[i]]
        {
          assert tail[i] == s[1..][rest[i]];
        }
      }
      if p(s[0]) {
        EmbedsCons(s[0], tail, s, shifted);
      }
    }
  }

  /** An embedding extends by an element taken from position 0. */
  lemma EmbedsCons<T>(x: T, r: seq<T>, s: seq<T>, idx: seq<nat>)
    requires |s| > 0 && s[0] == x
    requires Embeds(r, s, idx) && forall i :: 0 <= i < |idx| ==> idx[i] > 0
    ensures Embeds([x] + r, s, [0] + idx)
  {
    var r', idx' := [x] + r, [0] + idx;
    forall i | 0 <= i < |idx'|
      ensures idx'[i] < |s| && r'[i] == s[idx'[i]]
    {
      if i > 0 { assert r'[i] == r[i - 1] && idx'[i] == idx[i - 1]; }
    }
    forall i, j | 0 <= i < j < |idx'|
      ensures idx'[i] < idx'[j]
    {
      if i > 0 { assert idx'[i] == idx[i - 1] && idx'[j] == idx[j - 1]; }
    }
  }

  /** Applies `f` to every element, keeping order and length. */
  function Map<T, U>(s: seq<T>, f: T -> U): (r: seq<U>)
    ensures |r| == |s|
    ensures forall i :: 0 <= i < |s| ==> r[i] == f(s[i])
  {
    seq(|s|, i requires 0 <= i < |s| => f(s[i]))
  }

  /** Projecting both sides keeps an embedding. */
  lemma MapEmbeds<T, U>(r: seq<T>, s: seq<T>, idx: seq<nat>, f: T -> U)
    requires Embeds(r, s, idx)
    ensures Embeds(Map(r, f), Map(s, f), idx)
  {
  }

  /** Projecting distributes over concatenation. */
  lemma MapAppend<T, U>(s: seq<T>, t: seq<T>, f: T -> U)
    ensures Map(s + t, f) == Map(s, f) + Map(t, f)
  {
    assert forall i :: 0 <= i < |t| ==> (s + t)[|s| + i] == t[i];
  }

  /** Projecting after filtering on a projected test is filtering the projections. */
  lemma {:induction false} MapFilter<T, U>(s: seq<T>, f: T -> U, q: U -> bool, qf: T -> bool)
    requires forall x :: qf(x) == q(f(x))
    ensures Map(Filter(s, qf), f) == Filter(Map(s, f), q)
    decreases |s|
  {
    if |s| > 0 {
      MapFilter(s[1..], f, q, qf);
      assert Map(s, f)[1..] == Map(s[1..], f);
      if qf(s[0]) {
        assert Map([s[0]] + Filter(s[1..], qf), f) == [f(s[0])] + Map(Filter(s[1..], qf), f);
      }
    }
  }

  /** Projecting keeps the order: a strict order on projections carries over. */
  lemma MapKeepsOrder<T, U>(s: seq<T>, f: T -> U, less: (T, T) -> bool, lessU: (U, U) -> bool)
    requires StrictlySorted(s, less)
    requires forall x, y :: less(x, y) ==> lessU(f(x), f(y))
    ensures StrictlySorted(Map(s, f), lessU)
  {
  }

  /** True iff every earlier element is strictly below every later one. */
  ghost predicate StrictlySorted<T>(s: seq<T>, less: (T, T) -> bool) {
    forall i, j :: 0 <= i < j < |s| ==> less(s[i], s[j])
  }

  /** Filtering keeps relative order, so a strictly sorted input gives a strictly sorted result. */
  lemma {:induction false} FilterKeepsOrder<T>(s: seq<T>, p: T -> bool, less: (T, T) -> bool)
    requires StrictlySorted(s, less)
    ensures StrictlySorted(Filter(s, p), less)
    decreases |s|
  {
    if |s| > 0 {
      var tail := Filter(s[1..], p);
      FilterKeepsOrder(s[1..], p, less);
      if p(s[0]) {
        var r := [s[0]] + tail;
        forall i, j | 0 <= i < j < |r|
          ensures less(r[i], r[j])
        {
          if i == 0 {
            assert r[j] in s[1..];
          } else {
            assert r[i] == tail[i - 1] && r[j] == tail[j - 1];
          }
        }
      }
    }
  }

  /** The fixed page size of the list endpoints. */
  const PageSize: nat := 10

  /**
   Page `number` (1-based) of `s`: the run of at most `PageSize` elements starting at
   `(number - 1) * PageSize`, empty when that position is past the end.
   */
  function PageOf<T>(s: seq<T>, number: nat): (r: seq<T>)
    requires number >= 1
    ensures |r| <= PageSize
    ensures forall i :: 0 <= i < |r| ==> (number - 1) * PageSize + i < |s| && r[i] == s[(number - 1) * PageSize + i]
    ensures |r| < PageSize ==> (number - 1) * PageSize + |r| >= |s|
  {
    var start := (number - 1) * PageSize;
    if start >= |s| then []
    else if start + PageSize <= |s| then s[start..start + PageSize]
    else s[start..]
  }

  /** Pages 1 through `k`, concatenated. */
  function PagesThrough<T>(s: seq<T>, k: nat): seq<T> {
    if k == 0 then [] else PagesThrough(s, k - 1) + PageOf(s, k)
  }

  function Min(a: nat, b: nat): nat {
    if a < b then a else b
  }

  /** A page is the slice of `s` between its start and end positions, each capped at `|s|`. */
  lemma PageIsSlice<T>(s: seq<T>, number: nat)
    requires number >= 1
    ensures var start := (number - 1) * PageSize;
      PageOf(s, number) == s[Min(start, |s|)..Min(start + PageSize, |s|)]
  {
  }

  /** The first `k` pages are exactly the first `k * PageSize` elements (or all of them). */
  lemma {:induction false} PagesThroughIsPrefix<T>(s: seq<T>, k: nat)
    ensures PagesThrough(s, k) == s[..Min(k * PageSize, |s|)]
  {
    if k > 0 {
      PagesThroughIsPrefix(s, k - 1);
      var start := (k - 1) * PageSize;
      assert k * PageSize == start + PageSize;
      PageIsSlice(s, k);
      var a, b := Min(start, |s|), Min(start + PageSize, |s|);
      assert PagesThrough(s, k) == s[..a] + s[a..b];
      assert s[..a] + s[a..b] == s[..b];
    }
  }

  /** The number of pages needed to show every element, at least one. */
  function PageCount(n: nat): (k: nat)
    ensures k >= 1
    ensures k * PageSize >= n
    ensures n > 0 ==> (k - 1) * PageSize < n
  {
    if n == 0 then 1 else (n + PageSize - 1) / PageSize
  }

  /** Walking every page in turn lists each element exactly once, in order. */
  lemma PagesCoverAll<T>(s: seq<T>)
    ensures PagesThrough(s, PageCount(|s|)) == s
  {
    var k := PageCount(|s|);
    PagesThroughIsPrefix(s, k);
    assert s[..|s|] == s;
  }
}

=== FILE: sitemap.dfy ===
/**
 The sitemap job: locations, already ordered by title, grouped by country code in
 order of first appearance, each location giving a `{title: "<cc>/<slug>"}` entry.
 */
module Sitemap {
  import opened Outcomes
  import opened Models
  import Text
  import Seqs

  /** One `{title: url}` entry of a country's location list. */
  datatype Entry = Entry(title: string, url: string)

  /** One element of the sitemap array: `{"country": cc, "name": cc, "locations": [...]}`. */
  datatype CountryGroup = CountryGroup(country: string, name: string, locations: seq<Entry>)

  /** The URL slug of a title: lower-cased, every space turned into `-`. */
  function Slug(title: string): (r: string)
    ensures |r| == |title|
    ensures Text.Lacks(r, ' ')
    ensures forall i :: 0 <= i < |title| && title[i] == ' ' ==> r[i] == '-'
    ensures forall i :: 0 <= i < |title| && title[i] != ' ' ==> r[i] == Text.LowerChar(title[i])
  {
    Text.ReplaceChar(Text.Lower(title), ' ', '-')
  }

  /** The entry of one location: its title mapped to `lower(country_code) + "/" + slug`. */
  function EntryOf(l: Location): (e: Entry)
    ensures e.title == l.title
    ensures |e.url| == |l.countryCode| + 1 + |l.title|
    ensures e.url[..|l.countryCode|] == Text.Lower(l.countryCode)
    ensures e.url[|l.countryCode|] == '/'
    ensures e.url[|l.countryCode| + 1..] == Slug(l.title)
  {
    Entry(l.title, Text.Lower(l.countryCode) + "/" + Slug(l.title))
  }

  /** The distinct country codes of `locs`, in order of first appearance. */
  function Countries(locs: seq<Location>): (cs: seq<string>)
    ensures forall a, b :: 0 <= a < b < |cs| ==> cs[a] != cs[b]
    ensures forall i :: 0 <= i < |locs| ==> locs[i].countryCode in cs
  {
    if |locs| == 0 then []
    else
      var front := locs[..|locs| - 1];
      var cs := Countries(front);
      var c := locs[|locs| - 1].countryCode;
      assert forall i :: 0 <= i < |front| ==> locs[i] == front[i];
      if c in cs then cs else cs + [c]
  }

  /** Every listed country is the country of some location. */
  lemma {:induction false} CountriesOccur(locs: seq<Location>)
    ensures forall k :: 0 <= k < |Countries(locs)| ==>
      exists i :: 0 <= i < |locs| && locs[i].countryCode == Countries(locs)[k]
    decreases |locs|
  {
    if |locs| > 0 {
      var front := locs[..|locs| - 1];
      CountriesOccur(front);
      var cs, c := Countries(front), locs[|locs| - 1].countryCode;
      forall k | 0 <= k < |Countries(locs)|
        ensures exists i :: 0 <= i < |locs| && locs[i].countryCode == Countries(locs)[k]
      {
        if k < |cs| {
          assert Countries(locs)[k] == cs[k];
          var i :| 0 <= i < |front| && front[i].countryCode == cs[k];
          assert locs[i] == front[i];
        } else {
          assert Countries(locs)[k] == c;
          assert locs[|locs| - 1].countryCode == c;
        }
      }
    } else {
      assert Countries(locs) == [];
    }
  }

  /** The entries of the locations of country `c`, in input order. */
  function EntriesFor(locs: seq<Location>, c: string): seq<Entry> {
    if |locs| == 0 then []
    else
      var l := locs[|locs| - 1];
      EntriesFor(locs[..|locs| - 1], c) + (if l.countryCode == c then [EntryOf(l)] else [])
  }

  /** The sitemap as it is meant to be: one group per distinct country, holding that country's entries. */
  function Reference(locs: seq<Location>): seq<CountryGroup> {
    var cs := Countries(locs);
    seq(|cs|, k requires 0 <= k < |cs| => CountryGroup(cs[k], cs[k], EntriesFor(locs, cs[k])))
  }

  /** The position of the group of country `c`. */
  function GroupIndex(groups: seq<CountryGroup>, c: string): (r: Option<nat>)
    ensures r.None? <==> forall i :: 0 <= i < |groups| ==> groups[i].country != c
    ensures r.Some? ==> r.value < |groups| && groups[r.value].country == c
    ensures r.Some? ==> forall i :: 0 <= i < r.value ==> groups[i].country != c
  {
    if |groups| == 0 then None
    else if groups[0].country == c then Some(0)
    else match GroupIndex(groups[1..], c)
      case None => None
      case Some(k) => Some(k + 1)
  }

  /** One loop iteration: open the location's country group if it is new, then append its entry. */
  function AddLocation(groups: seq<CountryGroup>, l: Location): seq<CountryGroup> {
    match GroupIndex(groups, l.countryCode)
    case Some(i) => groups[i := groups[i].(locations := groups[i].locations + [EntryOf(l)])]
    case None => groups + [CountryGroup(l.countryCode, l.countryCode, [EntryOf(l)])]
  }

  /** A country no location has has no entries. */
  lemma {:induction false} NoEntriesForAbsentCountry(locs: seq<Location>, c: string)
    requires c !in Countries(locs)
    ensures EntriesFor(locs, c) == []
    decreases |locs|
  {
    if |locs| > 0 {
      var front := locs[..|locs| - 1];
      assert c !in Countries(front);
      NoEntriesForAbsentCountry(front, c);
    }
  }

  lemma CountriesSnoc(s: seq<Location>, l: Location)
    ensures Countries(s + [l]) ==
      if l.countryCode in Countries(s) then Countries(s) else Countries(s) + [l.countryCode]
  {
    var t := s + [l];
    assert t[..|t| - 1] == s;
  }

  lemma EntriesForSnoc(s: seq<Location>, l: Location, c: string)
    ensures EntriesFor(s + [l], c) == EntriesFor(s, c) + (if l.countryCode == c then [EntryOf(l)] else [])
  {
    var t := s + [l];
    assert t[..|t| - 1] == s;
  }

  lemma ExistingCountryStep(s: seq<Location>, l: Location)
    requires l.countryCode in Countries(s)
    ensures Reference(s + [l]) == AddLocation(Reference(s), l)
  {
    var cs := Countries(s);
    var g := Reference(s);
    var c := l.countryCode;
    CountriesSnoc(s, l);
    var k0 :| 0 <= k0 < |cs| && cs[k0] == c;
    assert g[k0].country == c;
    var i := GroupIndex(g, c).value;
    assert g[i].country == cs[i];
    assert i == k0;
    var rt, ra := Reference(s + [l]), AddLocation(g, l);
    assert |rt| == |ra| == |cs|;
    forall k | 0 <= k < |cs|
      ensures rt[k] == ra[k]
    {
      EntriesForSnoc(s, l, cs[k]);
    }
  }

  lemma NewCountryStep(s: seq<Location>, l: Location)
    requires l.countryCode !in Countries(s)
    ensures Reference(s + [l]) == AddLocation(Reference(s), l)
  {
    var cs := Countries(s);
    var g := Reference(s);
    var c := l.countryCode;
    CountriesSnoc(s, l);
    NoEntriesForAbsentCountry(s, c);
    assert forall k :: 0 <= k < |g| ==> g[k].country == cs[k];
    assert GroupIndex(g, c).None?;
    var rt, ra := Reference(s + [l]), AddLocation(g, l);
    assert |rt| == |ra| == |cs| + 1;
    forall k | 0 <= k < |cs| + 1
      ensures rt[k] == ra[k]
    {
      if k < |cs| {
        EntriesForSnoc(s, l, cs[k]);
      } else {
        EntriesForSnoc(s, l, c);
      }
    }
  }

  /** The loop step is correct: adding a location to the sitemap of a prefix gives the sitemap of the longer prefix. */
  lemma AddLocationStep(s: seq<Location>, l: Location)
    ensures Reference(s + [l]) == AddLocation(Reference(s), l)
  {
    if l.countryCode in Countries(s) {
      ExistingCountryStep(s, l);
    } else {
      NewCountryStep(s, l);
    }
  }

  /** A country's entries are exactly its locations' entries, in input order. */
  lemma {:induction false} EntriesAreFilteredLocations(locs: seq<Location>, c: string)
    ensures EntriesFor(locs, c) == Seqs.Map(Seqs.Filter(locs, (l: Location) => l.countryCode == c), EntryOf)
    decreases |locs|
  {
    if |locs| > 0 {
      var p := (l: Location) => l.countryCode == c;
      var front, last := locs[..|locs| - 1], locs[|locs| - 1];
      assert front + [last] == locs;
      EntriesAreFilteredLocations(front, c);
      EntriesForSnoc(front, last, c);
      Seqs.FilterAppend(front, [last], p);
      var tail := Seqs.Filter([last], p);
      assert tail == if p(last) then [last] else [];
      Seqs.MapAppend(Seqs.Filter(front, p), tail, EntryOf);
      assert Seqs.Map(tail, EntryOf) == if p(last) then [EntryOf(last)] else [];
    } else {
      assert EntriesFor(locs, c) == [];
    }
  }

  /** The number of entries over all groups. */
  function TotalEntries(groups: seq<CountryGroup>): nat {
    if |groups| == 0 then 0 else |groups[0].locations| + TotalEntries(groups[1..])
  }

  lemma {:induction false} TotalAfterAppend(groups: seq<CountryGroup>, i: nat, e: Entry)
    requires i < |groups|
    ensures TotalEntries(groups[i := groups[i].(locations := groups[i].locations + [e])]) == TotalEntries(groups) + 1
    decreases |groups|
  {
    var g := groups[i := groups[i].(locations := groups[i].locations + [e])];
    if i > 0 {
      assert g[1..] == groups[1..][i - 1 := groups[i].(locations := groups[i].locations + [e])];
      TotalAfterAppend(groups[1..], i - 1, e);
    } else {
      assert g[1..] == groups[1..];
    }
  }

  lemma {:induction false} TotalOfConcat(a: seq<CountryGroup>, b: seq<CountryGroup>)
    ensures TotalEntries(a + b) == TotalEntries(a) + TotalEntries(b)
    decreases |a|
  {
    if |a| == 0 {
      assert a + b == b;
    } else {
      assert (a + b)[1..] == a[1..] + b;
      TotalOfConcat(a[1..], b);
    }
  }

  /** Every location gives exactly one entry: the entries number as many as the locations. */
  lemma {:induction false} EveryLocationCounted(locs: seq<Location>)
    ensures TotalEntries(Reference(locs)) == |locs|
    decreases |locs|
  {
    if |locs| > 0 {
      var front, last := locs[..|locs| - 1], locs[|locs| - 1];
      EveryLocationCounted(front);
      assert front + [last] == locs;
      AddLocationStep(front, last);
      var g := Reference(front);
      match GroupIndex(g, last.countryCode)
      case Some(i) => TotalAfterAppend(g, i, EntryOf(last));
      case None =>
        var single := [CountryGroup(last.countryCode, last.countryCode, [EntryOf(last)])];
        TotalOfConcat(g, single);
        assert TotalEntries(single) == 1 + TotalEntries(single[1..]);
    }
  }

  /**
   Groups come in order of first appearance: wherever a later group's country occurs,
   an earlier group's country has already occurred before it.
   */
  lemma {:induction false} GroupsInFirstAppearanceOrder(locs: seq<Location>, a: nat, b: nat, j: nat)
    requires a < b < |Countries(locs)| && j < |locs| && locs[j].countryCode == Countries(locs)[b]
    ensures exists i :: 0 <= i < j && locs[i].countryCode == Countries(locs)[a]
    decreases |locs|
  {
    var front, last := locs[..|locs| - 1], locs[|locs| - 1];
    var cs := Countries(front);
    assert forall i :: 0 <= i < |front| ==> front[i] == locs[i];
    if last.countryCode in cs {
      assert Countries(locs) == cs;
      if j < |front| {
        GroupsInFirstAppearanceOrder(front, a, b, j);
      } else {
        CountriesOccur(front);
        var i0 :| 0 <= i0 < |front| && front[i0].countryCode == cs[b];
        GroupsInFirstAppearanceOrder(front, a, b, i0);
      }
    } else {
      assert Countries(locs) == cs + [last.countryCode];
      if b < |cs| {
        assert cs[b] in cs;
        assert j < |front|;
        GroupsInFirstAppearanceOrder(front, a, b, j);
      } else {
        assert forall i :: 0 <= i < |front| ==> locs[i].countryCode in cs;
        assert j == |front|;
        CountriesOccur(front);
        var i :| 0 <= i < |front| && front[i].countryCode == cs[a];
        assert locs[i].countryCode == Countries(locs)[a];
      }
    }
  }

  /** Each group's entries are its country's locations, in input order, under its own code as name. */
  lemma GroupContents(locs: seq<Location>)
    ensures forall k :: 0 <= k < |Reference(locs)| ==>
      && Reference(locs)[k].name == Reference(locs)[k].country
      && Reference(locs)[k].locations
         == Seqs.Map(Seqs.Filter(locs, (l: Location) => l.countryCode == Reference(locs)[k].country), EntryOf)
  {
    var g := Reference(locs);
    forall k | 0 <= k < |g|
      ensures g[k].locations == Seqs.Map(Seqs.Filter(locs, (l: Location) => l.countryCode == g[k].country), EntryOf)
    {
      EntriesAreFilteredLocations(locs, g[k].country);
    }
  }

  /** Every location's country has a group. */
  lemma EveryCountryHasGroup(locs: seq<Location>)
    ensures forall i :: 0 <= i < |locs| ==>
      exists k :: 0 <= k < |Reference(locs)| && Reference(locs)[k].country == locs[i].countryCode
  {
    var g := Reference(locs);
    var cs := Countries(locs);
    forall i | 0 <= i < |locs|
      ensures exists k :: 0 <= k < |g| && g[k].country == locs[i].countryCode
    {
      var k :| 0 <= k < |cs| && cs[k] == locs[i].countryCode;
      assert g[k].country == cs[k];
    }
  }

  /** `Command.handle` without the file write: the grouping loop over the title-ordered locations. */
  method BuildSitemap(locs: seq<Location>) returns (groups: seq<CountryGroup>)
    ensures groups == Reference(locs)
    ensures forall a, b :: 0 <= a < b < |groups| ==> groups[a].country != groups[b].country
    ensures forall k :: 0 <= k < |groups| ==>
      && groups[k].name == groups[k].country
      && groups[k].locations == Seqs.Map(Seqs.Filter(locs, (l: Location) => l.countryCode == groups[k].country), EntryOf)
    ensures forall i :: 0 <= i < |locs| ==> exists k :: 0 <= k < |groups| && groups[k].country == locs[i].countryCode
    ensures TotalEntries(groups) == |locs|
  {
    groups := [];
    for n := 0 to |locs|
      invariant groups == Reference(locs[..n])
    {
      AddLocationStep(locs[..n], locs[n]);
      assert locs[..n + 1] == locs[..n] + [locs[n]];
      groups := AddLocation(groups, locs[n]);
    }
    assert locs[..|locs|] == locs;
    GroupContents(locs);
    EveryCountryHasGroup(locs);
    EveryLocationCounted(locs);
  }
}

=== FILE: text.dfy ===
/**
 The few Python string operations the core relies on: `str.isspace`, `str.split()`
 with no separator, `str.replace(pat, "")`, and ASCII `lower`/`upper`.
 */
module Text {
  import Seqs

  /** Python's `str.isspace` for one code point (the characters `str.split()` splits on). */
  predicate IsSpace(c: char) {
    || c == ' '
    || ('\t' <= c <= '\r')                  // \t \n \x0b \x0c \r
    || ('\U{1C}' <= c <= '\U{1F}')          // file, group, record and unit separators
    || c == '\U{85}' || c == '\U{A0}' || c == '\U{1680}'
    || ('\U{2000}' <= c <= '\U{200A}')
    || c == '\U{2028}' || c == '\U{2029}' || c == '\U{202F}' || c == '\U{205F}' || c == '\U{3000}'
  }

  /** A token that `str.split()` can produce: non-empty, with no whitespace in it. */
  predicate IsWord(w: string) {
    |w| > 0 && forall i :: 0 <= i < |w| ==> !IsSpace(w[i])
  }

  /** True iff `c` is kept by `split()`, that is, is not whitespace. */
  predicate NonSpace(c: char) {
    !IsSpace(c)
  }

  /** True iff `c` does not occur in `s`. */
  predicate Lacks(s: string, c: char) {
    forall i :: 0 <= i < |s| ==> s[i] != c
  }

  lemma LacksConcat(a: string, b: string, c: char)
    requires Lacks(a, c) && Lacks(b, c)
    ensures Lacks(a + b, c)
  {
    forall i | 0 <= i < |a + b|
      ensures (a + b)[i] != c
    {
      if i >= |a| { assert (a + b)[i] == b[i - |a|]; }
    }
  }

  /**
   `s.replace(pat, "")`: occurrences of `pat` are found left to right, without overlap,
   and the text produced by a removal is not scanned again.
   */
  function RemoveAll(s: string, pat: string): (r: string)
    requires |pat| > 0
    ensures |r| <= |s|
    ensures forall i :: 0 <= i < |r| ==> r[i] in s
    ensures |pat| == 1 ==> Lacks(r, pat[0])
    decreases |s|
  {
    if |s| < |pat| then
      assert |pat| == 1 ==> |s| == 0;
      s
    else if s[..|pat|] == pat then RemoveAll(s[|pat|..], pat)
    else [s[0]] + RemoveAll(s[1..], pat)
  }

  /** Removing a pattern whose last character never occurs in `s` changes nothing. */
  lemma {:induction false} RemoveAbsent(s: string, pat: string)
    requires |pat| > 0 && Lacks(s, pat[|pat| - 1])
    ensures RemoveAll(s, pat) == s
    decreases |s|
  {
    if |s| >= |pat| {
      assert s[..|pat|][|pat| - 1] == s[|pat| - 1];
      assert s[..|pat|] != pat;
      RemoveAbsent(s[1..], pat);
      assert [s[0]] + s[1..] == s;
    }
  }

  /** No occurrence can start inside a prefix that lacks the pattern's first character. */
  lemma {:induction false} RemoveAfterPrefix(u: string, v: string, pat: string)
    requires |pat| > 0 && Lacks(u, pat[0])
    ensures RemoveAll(u + v, pat) == u + RemoveAll(v, pat)
    decreases |u|
  {
    if |u| > 0 {
      var s := u + v;
      if |s| < |pat| {
        assert RemoveAll(v, pat) == v;
      } else {
        assert s[0] == u[0] && u[0] != pat[0];
        assert s[..|pat|][0] == u[0];
        assert s[..|pat|] != pat;
        assert RemoveAll(s, pat) == [s[0]] + RemoveAll(s[1..], pat);
        assert s[1..] == u[1..] + v;
        assert Lacks(u[1..], pat[0]);
        RemoveAfterPrefix(u[1..], v, pat);
        assert RemoveAll(s, pat) == [u[0]] + (u[1..] + RemoveAll(v, pat));
        assert [u[0]] + (u[1..] + RemoveAll(v, pat)) == ([u[0]] + u[1..]) + RemoveAll(v, pat);
        assert [u[0]] + u[1..] == u;
      }
    } else {
      assert u + v == v;
    }
  }

  /**
   An occurrence of `pat` after a prefix lacking its first character is removed whole, and
   the scan goes on right after it.
   */
  lemma RemoveStep(u: string, v: string, pat: string)
    requires |pat| > 0 && Lacks(u, pat[0])
    ensures RemoveAll(u + pat + v, pat) == u + RemoveAll(v, pat)
  {
    assert u + pat + v == u + (pat + v);
    RemoveAfterPrefix(u, pat + v, pat);
    assert (pat + v)[..|pat|] == pat && (pat + v)[|pat|..] == v;
  }

  /** Removing a one-character pattern keeps every other character, in order. */
  lemma {:induction false} RemoveCharIsFilter(s: string, c: char, keep: char -> bool)
    requires forall x :: keep(x) == (x != c)
    ensures RemoveAll(s, [c]) == Seqs.Filter(s, keep)
    decreases |s|
  {
    if |s| > 0 {
      assert s[..1] == [c] <==> s[0] == c;
      RemoveCharIsFilter(s[1..], c, keep);
    }
  }

  /** Length of the run of non-whitespace characters that starts `s`. */
  function WordLength(s: string): (n: nat)
    ensures n <= |s|
    ensures forall i :: 0 <= i < n ==> !IsSpace(s[i])
    ensures n < |s| ==> IsSpace(s[n])
  {
    if |s| == 0 || IsSpace(s[0]) then 0 else 1 + WordLength(s[1..])
  }

  /** `s.split()`: the maximal runs of non-whitespace characters, in order. */
  function Tokens(s: string): (ts: seq<string>)
    ensures forall i :: 0 <= i < |ts| ==> IsWord(ts[i])
    decreases |s|
  {
    if |s| == 0 then []
    else if IsSpace(s[0]) then Tokens(s[1..])
    else
      var n := WordLength(s);
      [s[..n]] + Tokens(s[n..])
  }

  /** `" ".join(ws)`. */
  function JoinWords(ws: seq<string>): string {
    if |ws| == 0 then ""
    else if |ws| == 1 then ws[0]
    else ws[0] + " " + JoinWords(ws[1..])
  }

  lemma {:induction false} WordLengthOfWord(w: string, rest: string)
    requires IsWord(w)
    requires |rest| == 0 || IsSpace(rest[0])
    ensures WordLength(w + rest) == |w|
    decreases |w|
  {
    if |w| > 1 {
      assert (w + rest)[1..] == w[1..] + rest;
      WordLengthOfWord(w[1..], rest);
    } else {
      assert (w + rest)[1..] == rest;
    }
  }

  /** Splitting words joined by single spaces gives the words back. */
  lemma {:induction false} TokensOfJoin(ws: seq<string>)
    requires forall i :: 0 <= i < |ws| ==> IsWord(ws[i])
    ensures Tokens(JoinWords(ws)) == ws
    decreases |ws|
  {
    if |ws| == 1 {
      var w := ws[0];
      WordLengthOfWord(w, "");
      assert w + "" == w;
      assert w[|w|..] == "";
    } else if |ws| > 1 {
      var w, rest := ws[0], JoinWords(ws[1..]);
      var s := w + " " + rest;
      assert s == w + (" " + rest);
      WordLengthOfWord(w, " " + rest);
      assert s[..|w|] == w;
      assert s[|w|..] == " " + rest;
      assert (" " + rest)[1..] == rest;
      TokensOfJoin(ws[1..]);
      assert Tokens(s) == [w] + Tokens(" " + rest);
    }
  }

  /** `"".join(ws)`: the words written one after another. */
  function Concat(ws: seq<string>): string {
    if |ws| == 0 then "" else ws[0] + Concat(ws[1..])
  }

  /** The tokens, written back to back, are the text with its whitespace removed. */
  lemma {:induction false} TokensCoverText(s: string, keep: char -> bool)
    requires forall x :: keep(x) == !IsSpace(x)
    ensures Concat(Tokens(s)) == Seqs.Filter(s, keep)
    decreases |s|
  {
    if |s| > 0 {
      if IsSpace(s[0]) {
        TokensCoverText(s[1..], keep);
      } else {
        var n := WordLength(s);
        assert Tokens(s) == [s[..n]] + Tokens(s[n..]);
        ConcatCons(s[..n], Tokens(s[n..]));
        TokensCoverText(s[n..], keep);
        Seqs.FilterKeptPrefix(s, n, keep);
      }
    }
  }

  lemma ConcatCons(w: string, ws: seq<string>)
    ensures Concat([w] + ws) == w + Concat(ws)
  {
    assert ([w] + ws)[1..] == ws;
  }

  /** True iff a word of `s` starts at position `i`: a non-space at the start or after a space. */
  predicate StartsWordAt(s: string, i: nat)
    requires i < |s|
  {
    !IsSpace(s[i]) && (i == 0 || IsSpace(s[i - 1]))
  }

  /** The positions `i` with `k <= i < |s|` at which a word starts, in increasing order. */
  function WordStartsFrom(s: string, k: nat): (st: seq<nat>)
    requires k <= |s|
    ensures forall j :: 0 <= j < |st| ==> k <= st[j] < |s| && StartsWordAt(s, st[j])
    ensures forall j, l :: 0 <= j < l < |st| ==> st[j] < st[l]
    decreases |s| - k
  {
    if k == |s| then []
    else if StartsWordAt(s, k) then [k] + WordStartsFrom(s, k + 1)
    else WordStartsFrom(s, k + 1)
  }

  /** Every word start at or after `k` is listed. */
  lemma {:induction false} WordStartsComplete(s: string, k: nat, i: nat)
    requires k <= i < |s| && StartsWordAt(s, i)
    ensures i in WordStartsFrom(s, k)
    decreases i - k
  {
    if k < i {
      WordStartsComplete(s, k + 1, i);
    }
  }

  /** No word starts strictly inside a run of non-whitespace. */
  lemma {:induction false} NoStartsInside(s: string, k: nat, m: nat)
    requires 1 <= m && k + m <= |s|
    requires forall i :: k <= i < k + m ==> !IsSpace(s[i])
    ensures WordStartsFrom(s, k + 1) == WordStartsFrom(s, k + m)
    decreases m
  {
    if m > 1 {
      NoStartsInside(s, k, m - 1);
      assert !StartsWordAt(s, k + m - 1);
    }
  }

  /** True iff `ts` holds, for each word start in `st`, the maximal non-whitespace run there. */
  predicate RunsAt(s: string, st: seq<nat>, ts: seq<string>) {
    |ts| == |st| && forall j :: 0 <= j < |ts| ==> RunAt(s, st[j], ts[j])
  }

  /**
   True iff `w` is the maximal run of non-whitespace of `s` that begins at `p`: a word that
   occurs in `s` at `p` and is followed by whitespace or the end of `s`.
   */
  predicate RunAt(s: string, p: nat, w: string) {
    && IsWord(w)
    && p + |w| <= |s|
    && w == s[p..p + |w|]
    && (p + |w| == |s| || IsSpace(s[p + |w|]))
  }

  lemma RunsCons(s: string, k: nat, w: string, st: seq<nat>, ts: seq<string>)
    requires RunAt(s, k, w) && RunsAt(s, st, ts)
    ensures RunsAt(s, [k] + st, [w] + ts)
  {
    var st', ts' := [k] + st, [w] + ts;
    forall j | 0 <= j < |ts'|
      ensures RunAt(s, st'[j], ts'[j])
    {
      if j > 0 {
        assert ts'[j] == ts[j - 1] && st'[j] == st[j - 1];
      }
    }
  }

  /** The tokens of `s[k..]` are the runs at the word starts from `k` on. */
  lemma {:induction false} TokensFrom(s: string, k: nat)
    requires k <= |s|
    requires k == 0 || k == |s| || IsSpace(s[k - 1]) || IsSpace(s[k])
    ensures RunsAt(s, WordStartsFrom(s, k), Tokens(s[k..]))
    decreases |s| - k, 1
  {
    if k == |s| {
      assert Tokens(s[k..]) == [] && WordStartsFrom(s, k) == [];
    } else if IsSpace(s[k]) {
      TokensFromSpace(s, k);
    } else {
      TokensFromWord(s, k);
    }
  }

  /** A whitespace character starts no word, so skipping it changes neither side. */
  lemma {:induction false} TokensFromSpace(s: string, k: nat)
    requires k < |s| && IsSpace(s[k])
    ensures RunsAt(s, WordStartsFrom(s, k), Tokens(s[k..]))
    decreases |s| - k, 0
  {
    TokensFrom(s, k + 1);
    var t := s[k..];
    assert t[1..] == s[k + 1..];
    assert Tokens(t) == Tokens(s[k + 1..]);
    assert !StartsWordAt(s, k);
    assert WordStartsFrom(s, k) == WordStartsFrom(s, k + 1);
  }

  /** A word starting at `k` is the first token, and the tokens after it start after its run. */
  lemma {:induction false} TokensFromWord(s: string, k: nat)
    requires k < |s| && !IsSpace(s[k])
    requires k == 0 || IsSpace(s[k - 1])
    ensures RunsAt(s, WordStartsFrom(s, k), Tokens(s[k..]))
    decreases |s| - k, 0
  {
    var t := s[k..];
    var n := WordLength(t);
    assert k + n < |s| ==> s[k + n] == t[n];
    TokensFrom(s, k + n);
    assert t[n..] == s[k + n..];
    assert Tokens(t) == [t[..n]] + Tokens(s[k + n..]);
    assert t[..n] == s[k..k + n];
    assert forall i :: k <= i < k + n ==> s[i] == t[i - k];
    NoStartsInside(s, k, n);
    assert WordStartsFrom(s, k) == [k] + WordStartsFrom(s, k + n);
    assert RunAt(s, k, t[..n]);
    RunsCons(s, k, t[..n], WordStartsFrom(s, k + n), Tokens(s[k + n..]));
  }

  /**
   `split()` gives one token per position where a word starts, in order, and the token for
   that position is the whole run of non-whitespace beginning there.
   */
  lemma TokensAreRuns(s: string)
    ensures RunsAt(s, WordStartsFrom(s, 0), Tokens(s))
  {
    TokensFrom(s, 0);
    assert s[0..] == s;
  }

  /** ASCII `str.lower` on one character. */
  function LowerChar(c: char): char {
    if 'A' <= c <= 'Z' then (c as int + 32) as char else c
  }

  /** ASCII `str.upper` on one character. */
  function UpperChar(c: char): char {
    if 'a' <= c <= 'z' then (c as int - 32) as char else c
  }

  /** ASCII `str.lower`: same length, no upper-case ASCII letter left, other characters kept. */
  function Lower(s: string): (r: string)
    ensures |r| == |s|
    ensures forall i :: 0 <= i < |r| ==> !('A' <= r[i] <= 'Z')
    ensures forall i :: 0 <= i < |r| && !('A' <= s[i] <= 'Z') ==> r[i] == s[i]
    ensures forall i :: 0 <= i < |r| && 'A' <= s[i] <= 'Z' ==> r[i] as int == s[i] as int + 32
  {
    seq(|s|, i requires 0 <= i < |s| => LowerChar(s[i]))
  }

  /** ASCII `str.upper`: same length, no lower-case ASCII letter left, other characters kept. */
  function Upper(s: string): (r: string)
    ensures |r| == |s|
    ensures forall i :: 0 <= i < |r| ==> !('a' <= r[i] <= 'z')
    ensures forall i :: 0 <= i < |r| && !('a' <= s[i] <= 'z') ==> r[i] == s[i]
    ensures forall i :: 0 <= i < |r| && 'a' <= s[i] <= 'z' ==> r[i] as int == s[i] as int - 32
  {
    seq(|s|, i requires 0 <= i < |s| => UpperChar(s[i]))
  }

  /** `s.replace(a, b)` for one-character `a` and `b`. */
  function ReplaceChar(s: string, a: char, b: char): (r: string)
    ensures |r| == |s|
    ensures a != b ==> Lacks(r, a)
    ensures forall i :: 0 <= i < |s| && s[i] != a ==> r[i] == s[i]
  {
    seq(|s|, i requires 0 <= i < |s| => if s[i] == a then b else s[i])
  }
}
